=== FILE: README.md ===
# ST7789 driver and encoder-demo plot, modelled in Dafny

This project models two pieces of the pimoroni-pico C++ code.

The first is the **ST7789 display-controller driver** (`drivers/st7789/st7789.cpp`). The model covers:
- the register and MADCTL flag enums;
- `configure_display`: the panel table, the in-place byte swap of the module-level `caset`/`raset` globals, and the three geometry commands;
- `init`: the fixed command list, the size-keyed gamma block, and the optional first frame;
- `command`: chip-select and data/command framing on the SPI bus;
- `update` and `flip`.

Each driver call is a pure function that returns a trace of steps: commands sent, `sleep_ms` delays and backlight writes. Each command frames into a trace of line and bus events. The module-level `madctl`, `caset` and `raset` are explicit state passed in and returned. Like the source, that state holds the window words after the byte swap.

The second is the **signal plot of the Pico Explorer encoder demo** (`examples/pico_explorer_encoder/demo.cpp`). The model covers:
- the sample ring and scratch buffer written by `repeating_timer_callback`;
- the copy-back loop that empties the scratch buffer;
- the zoom buttons with their latches;
- `draw_plot`: window start, backward edge alignment, split of the reading window into per-column sub-windows, and classification of each column as low, high or transition.

Pixel calls become the per-column `DrawState`. `uint32_t` arithmetic is written out modulo 2^32.

Modules:
- `Wrappers`: `Option`.
- `Bytes`: bytes, 16-bit words, `__builtin_bswap16`, big-endian and memory-order byte views.
- `Regs`: opcodes and MADCTL flags.
- `Transport`: command framing, a deframer and the chip-select discipline.
- `Geometry`: the panel table and `configure_display`.
- `Driver`: `init`, `update`, `flip`.
- `Zoom`: zoom buttons.
- `Sampler`: sample buffers.
- `Plot`: `draw_plot`.

For a panel size outside the table, the code assigns nothing and raises no error: it byte-swaps whatever the globals hold and sends it. The globals start at zero, so a first call sends all-zero windows. After another driver instance has configured a known panel, it sends that panel's windows byte-swapped (`Geometry.UnknownAfterPicoDisplay`).

The rotated square 240x240 entry programs rows 80..329. That window is 250 rows, not 240. `Geometry.RotatedWindows` proves that `height` rows counted from the window start end at row 319, before the window's last row 329. If the controller fills the window row by row from its start, a frame of `width*height` pixels therefore fills only rows 80..319. That fill order is controller behaviour and is not modelled.

## Model

| member | source | states |
|---|---|---|
| Bytes.BigEndian | drivers/st7789/st7789.cpp:152-159 | a window word goes on the wire as two bytes, high byte first, then low byte |
| Bytes.MemoryBytes | drivers/st7789/st7789.cpp:158-159 | `(char *)` of a `uint16_t` on the little-endian target gives the low byte first, then the high byte |
| Bytes.Bswap16 | drivers/st7789/st7789.cpp:153-156 | `__builtin_bswap16` exchanges the two memory bytes of a word |
| Bytes.BigEndianRoundTrip | drivers/st7789/st7789.cpp:152-159 | the receiver rebuilds each window word exactly from its two wire bytes |
| Bytes.MemoryBytesRoundTrip | drivers/st7789/st7789.cpp:202 | the two memory-order bytes of a pixel determine it: the payload is the frame buffer's bytes in host memory order, lossless |
| Bytes.MemoryReadBigEndian | drivers/st7789/st7789.cpp:202 | reading a pixel's memory-order bytes high byte first yields the pixel byte-swapped |
| Bytes.Bswap16Involution | drivers/st7789/st7789.cpp:153-156 | swapping twice restores the word |
| Bytes.SwappedMemoryIsBigEndian | drivers/st7789/st7789.cpp:152-158 | the raw memory of a swapped word is the big-endian encoding of the original word |
| Transport.Frame | drivers/st7789/st7789.cpp:187-199 | a transaction is 4 events without a payload and 6 with one; it opens with chip select low and closes with chip select high |
| Transport.DeframeFrameAll | drivers/st7789/st7789.cpp:187-199 | from back-to-back transactions the receiver recovers every opcode and payload, in order |
| Transport.DeframeSound | drivers/st7789/st7789.cpp:187-199 | any trace the receiver accepts is exactly the framing of the commands it reads, so framing is a bijection onto well-formed traces |
| Transport.FrameBracketed | drivers/st7789/st7789.cpp:188-198 | within a transaction, D/C changes and bytes are written only while chip select is low, and the transaction ends deselected |
| Transport.FrameAllBracketed | drivers/st7789/st7789.cpp:187-199 | consecutive transactions never overlap or interleave |
| Transport.FrameBusBytes | drivers/st7789/st7789.cpp:191-195 | the bus carries the opcode, then the payload bytes verbatim only when a payload pointer is given |
| Geometry.Calibration | drivers/st7789/st7789.cpp:100-150 | the panel table: every window is non-empty; with SWAP_XY the windows lie in a 320x240 raster, without it columns stay below 240; rows stay below 320 except the rotated square panel's; ROW_ORDER is set exactly in the rotated entries |
| Geometry.Classify | drivers/st7789/st7789.cpp:100-150 | a panel is known exactly when its size is one of the five in the table; the round variant applies only at 240x240 |
| Geometry.Resolve | drivers/st7789/st7789.cpp:100-150 | a geometry exists exactly for the known panels |
| Geometry.AssignGlobals | drivers/st7789/st7789.cpp:100-150 | the five independent `if` branches, using the MADCTL flag operations, assign exactly the literal table entry for a known panel and leave the globals untouched otherwise |
| Geometry.SendSwappedIsBigEndian | drivers/st7789/st7789.cpp:152-160 | swapping in place and sending raw memory equals sending the assigned windows big-endian, start before end |
| Geometry.ConfigureDisplay | drivers/st7789/st7789.cpp:97-161 | always three commands; for a known panel, the table entry on the wire and swapped words left in the globals; for an unknown panel, the previous globals re-sent and swapped once more |
| Geometry.WindowsSpanPanel | drivers/st7789/st7789.cpp:100-150 | unrotated, every known panel's column window is exactly `width` wide and its row window exactly `height` tall |
| Geometry.RotatedWindows | drivers/st7789/st7789.cpp:100-150 | rotated, columns still span `width` and rows span `height`, except the square panel's 250-row window starting at row 80, whose first `height` rows end at row 319, before the window's last row |
| Geometry.RotationMovesOnlySquareRows | drivers/st7789/st7789.cpp:100-112 | rotation never moves a column window; it moves the row window exactly for the square non-round 240x240 panel |
| Geometry.MadctlBits | drivers/st7789/st7789.cpp:110-140 | in every entry: ROW_ORDER is set exactly when rotated; SWAP_XY and SCAN_ORDER exactly for landscape panels; COL_ORDER when rotated on portrait or square panels and when unrotated on landscape ones; HORIZ_ORDER exactly for square panels; RGB never |
| Geometry.PicoDisplayWireBytes | drivers/st7789/st7789.cpp:115-121 | Pico Display sends CASET `00 28 01 17`, RASET `00 35 00 BB` and MADCTL `70` |
| Geometry.UnknownPanelFromPowerOn | drivers/st7789/st7789.cpp:7-9 | an unknown size sends all-zero windows and MADCTL 0 from the zero-initialised globals, and leaves them zero |
| Geometry.UnknownAfterPicoDisplay | drivers/st7789/st7789.cpp:152-158 | after a Pico Display, an unknown size sends its column window byte-swapped, `28 00 17 01` |
| Geometry.UnknownPanelTwiceRestores | drivers/st7789/st7789.cpp:153-156 | for an unknown size, two calls leave the globals as they were |
| Geometry.KnownPanelIgnoresHistory | drivers/st7789/st7789.cpp:100-160 | for a known panel, the commands and the resulting globals depend only on panel and rotation, not on earlier calls |
| Geometry.FlipBackReproduces | drivers/st7789/st7789.cpp:97-161 | unrotated, then rotated, then unrotated again resends the first commands byte for byte, for every panel and prior state |
| Driver.FrameBytesRoundTrip | drivers/st7789/st7789.cpp:202 | the payload is the frame buffer's bytes in host memory order, lossless |
| Driver.FrameBytesAt | drivers/st7789/st7789.cpp:202 | pixel `k` sits at payload bytes `2k` (its low byte) and `2k + 1` (its high byte) |
| Driver.ControllerSeesSwappedPixels | drivers/st7789/st7789.cpp:202 | the controller, reading high byte first, receives every frame-buffer pixel byte-swapped |
| Driver.Update | drivers/st7789/st7789.cpp:201-203 | `update` is one RAMWR with exactly `width*height*2` payload bytes, which decode in host memory order to the first `width*height` pixels; the controller sees them byte-swapped (`Driver.ControllerSeesSwappedPixels`) |
| Driver.OpcodesOfCommonInit | drivers/st7789/st7789.cpp:50-64 | the reset comes first, then TEON, COLMOD, PORCTRL, LCMCTRL, VDVVRHEN, VRHS, VDVS, PWCTRL1 and FRCTRL2 |
| Driver.OpcodesOfGammaBlock | drivers/st7789/st7789.cpp:66-80 | 240x240 sends GCTRL, VCOMS and both gamma curves; 320x240 and 240x320 add 0xD6; other sizes send no gamma commands |
| Driver.OpcodesOfDisplayOn | drivers/st7789/st7789.cpp:82-84 | the display-on commands are INVON, SLPOUT and DISPON, in that order (the following 100 ms delay is stated by `Driver.PowerUpEnds`) |
| Driver.SetupOpcodesOfInit | drivers/st7789/st7789.cpp:50-86 | the power-up part of `init` sends the setup opcodes of the panel's size class, in order |
| Driver.PowerUpEnds | drivers/st7789/st7789.cpp:50-86 | power-up starts with SWRESET and a 150 ms delay and ends with the 100 ms delay |
| Driver.OpcodesOfFirstFrame | drivers/st7789/st7789.cpp:90-94 | the first frame is a RAMWR exactly when a backlight pin is set |
| Driver.InitOpcodeOrder | drivers/st7789/st7789.cpp:49-95 | all `init` opcodes in order: setup, size-class gamma, display on, CASET/RASET/MADCTL, then RAMWR only with a backlight pin |
| Driver.InitStructure | drivers/st7789/st7789.cpp:49-95 | `init` opens with reset and 150 ms, sends the unrotated geometry right after the 100 ms delay and leaves that call's globals; with a backlight pin it then sends the frame, waits 50 ms and sets backlight 255, and without one it stops there |
| Driver.GammaBlock | drivers/st7789/st7789.cpp:66-80 | the two size checks exclude each other: 4 gamma commands for 240x240, 5 for the 320-class panels, none otherwise, each with its parameter bytes |
| Driver.FirstFrame | drivers/st7789/st7789.cpp:90-94 | with a backlight pin: a RAMWR of the whole `width*height*2`-byte frame first and full backlight last; nothing without one |
| Driver.Init | drivers/st7789/st7789.cpp:49-95 | the trace has the power-up steps, three geometry commands, and three more steps exactly when a backlight pin is set; it ends with full backlight exactly then |
| Driver.Flip | drivers/st7789/st7789.cpp:213-215 | `flip` sends three commands; on a known panel it leaves ROW_ORDER set, and on an unknown one it leaves MADCTL as it was |
| Driver.GeometryOpcodes | drivers/st7789/st7789.cpp:158-160 | the geometry is exactly CASET with 4 bytes, RASET with 4 and MADCTL with 1 |
| Driver.FlipSendsOnlyGeometry | drivers/st7789/st7789.cpp:213-215 | `flip` sends only CASET, RASET and MADCTL, none of them an `init` setup opcode |
| Driver.InitThenFlip | drivers/st7789/st7789.cpp:213-215 | after `init`, `flip` on a known panel programs exactly the rotated table entry |
| Driver.WireIsWellFormed | drivers/st7789/st7789.cpp:187-199 | every driver trace becomes well-bracketed bus traffic, from which the receiver reads back exactly the commands sent |
| Zoom.ZoomOut | examples/pico_explorer_encoder/demo.cpp:290 | halving with a floor of 1 stays in [1, 512] and decreases every zoom above 1 |
| Zoom.ZoomIn | examples/pico_explorer_encoder/demo.cpp:301 | doubling with a cap of 512 never exceeds 512 and increases every zoom below it |
| Zoom.ButtonA | examples/pico_explorer_encoder/demo.cpp:287-295 | the A latch follows the button, X's latch is untouched, and the zoom changes only on a press edge, where it goes down |
| Zoom.ButtonX | examples/pico_explorer_encoder/demo.cpp:298-306 | the X latch follows the button, A's latch is untouched, and the zoom changes only on a press edge, where it goes up below the cap |
| Zoom.Tick | examples/pico_explorer_encoder/demo.cpp:286-306 | one refresh: both latches follow their buttons, the zoom changes only when a button goes down, and it stays in [1, 512] |
| Zoom.NoEdgeNoZoom | examples/pico_explorer_encoder/demo.cpp:286-306 | zooming is edge-triggered: any run of refreshes in which no button goes down, however long buttons are held, leaves the zoom unchanged |
| Zoom.TickKeepsZoomLevel | examples/pico_explorer_encoder/demo.cpp:286-306 | one refresh keeps the zoom a power of two in [1, 512] |
| Zoom.RunKeepsZoomLevel | examples/pico_explorer_encoder/demo.cpp:286-306 | any sequence of refreshes keeps the zoom a power of two in [1, 512] |
| Zoom.DemoZoomLevels | examples/pico_explorer_encoder/demo.cpp:105 | from the demo's start at x1 with both latches clear, every reachable zoom is a power of two in [1, 512] |
| Zoom.ZoomInOutInverse | examples/pico_explorer_encoder/demo.cpp:286-306 | for powers of two (every reachable zoom, see `Zoom.RunKeepsZoomLevel`) away from the limits, zooming in undoes zooming out and vice versa |
| Zoom.HeldAZoomsOutOnce | examples/pico_explorer_encoder/demo.cpp:287-295 | holding A alone (X up) zooms out exactly once, or not at all if A's latch was already set, however many refreshes it is held for |
| Zoom.HeldXZoomsInOnce | examples/pico_explorer_encoder/demo.cpp:298-306 | holding X alone (A up) zooms in exactly once, or not at all if X's latch was already set, however many refreshes it is held for |
| Zoom.HeldAActsAtMostOnce | examples/pico_explorer_encoder/demo.cpp:287-295 | whatever X does, while A is held its latch stays set, and on every refresh after the first A's handling leaves the state unchanged |
| Zoom.HeldXActsAtMostOnce | examples/pico_explorer_encoder/demo.cpp:298-306 | whatever A does, while X is held its latch stays set, and on every refresh after the first X's handling leaves the state unchanged |
| Sampler.BufferSizes | examples/pico_explorer_encoder/demo.cpp:53-60 | the ring holds one second of 100 us samples (10000); the scratch buffer is a tenth of that |
| Sampler.Setup | examples/pico_explorer_encoder/demo.cpp:225-229 | every ring slot holds the initial encoder state, and both indices are zero |
| Sampler.Advance | examples/pico_explorer_encoder/demo.cpp:196-199 | the incremented ring index, reset at the end, is always a valid slot |
| Sampler.AdvanceWraps | examples/pico_explorer_encoder/demo.cpp:196-199 | increment-then-reset is the successor modulo `READINGS_SIZE` |
| Sampler.TimerCallback | examples/pico_explorer_encoder/demo.cpp:185-203 | the ring index stays below `READINGS_SIZE` and the scratch index never exceeds `SCRATCH_SIZE` |
| Sampler.TimerCallbackStores | examples/pico_explorer_encoder/demo.cpp:187-199 | while drawing with room, the sample goes to the next scratch slot, the scratch index advances by one, and every other scratch slot and the ring are unchanged; otherwise it goes to the next ring slot, only that slot changes, and the index advances modulo the ring size |
| Sampler.WriteRunPlaces | examples/pico_explorer_encoder/demo.cpp:324-331 | a run of at most `READINGS_SIZE` samples lands in order in consecutive slots, wrapping at the end, and leaves every other slot unchanged |
| Sampler.AppendRun | examples/pico_explorer_encoder/demo.cpp:324-331 | the copy loop writes exactly the closed-form run and ends at the start index plus the count, modulo the ring size |
| Sampler.CopyBack | examples/pico_explorer_encoder/demo.cpp:323-334 | after copy-back, the scratch samples sit in order in the ring slots after the old index and every other slot is unchanged; drawing ends with an empty scratch buffer |
| Sampler.DirectTicks | examples/pico_explorer_encoder/demo.cpp:192-199 | when not drawing, timer ticks append their samples to the ring |
| Sampler.DeferredTicks | examples/pico_explorer_encoder/demo.cpp:187-191 | while drawing with room, ticks append to the scratch buffer and leave the ring alone |
| Sampler.ScratchDefersWrites | examples/pico_explorer_encoder/demo.cpp:314-334 | samples deferred to the scratch buffer during a redraw end up in the same ring slots, in the same order and with the same next index, as if written directly |
| Plot.ReadingWindow | examples/pico_explorer_encoder/demo.cpp:113 | the window is at most `READINGS_SIZE` samples and the whole ring at zoom 1 |
| Plot.StartIndex | examples/pico_explorer_encoder/demo.cpp:114-115 | the start index is always a valid ring index, even after the 32-bit sum wraps |
| Plot.AlignWindow | examples/pico_explorer_encoder/demo.cpp:123 | the 32-bit difference is exactly the number of older samples not shown, whatever the wrap |
| Plot.Back | examples/pico_explorer_encoder/demo.cpp:127 | every alignment read index is inside the ring |
| Plot.FindAlignment | examples/pico_explorer_encoder/demo.cpp:120-138 | the search stops at the first high-to-low edge going back, with offset below the align window; with offset 0, no edge exists in the searched range |
| Plot.EdgeAtDrawStart | examples/pico_explorer_encoder/demo.cpp:127-135 | at a nonzero offset the reading at the new start is low and the next one is high |
| Plot.ClassifyColumn | examples/pico_explorer_encoder/demo.cpp:149-161 | a column is TRANSITION exactly when some sample in its sub-window differs from the carried reading, and otherwise HIGH or LOW by that reading; the carried reading becomes the sub-window's last sample |
| Plot.ColumnEndExact | examples/pico_explorer_encoder/demo.cpp:146 | without 32-bit wrap, a column ends at the exact quotient |
| Plot.NoWrapForNarrowScreens | examples/pico_explorer_encoder/demo.cpp:113-146 | the column-end product `screen_window * reading_window` stays below 2^32 at every zoom whenever the screen window is at most 429,496 columns |
| Plot.ColumnOrdered | examples/pico_explorer_encoder/demo.cpp:144-163 | each column's sub-window is an interval inside the reading window |
| Plot.ColumnsPartition | examples/pico_explorer_encoder/demo.cpp:144-163 | sub-windows start at 0, are contiguous and non-decreasing, and the last ends at `reading_window` |
| Plot.ColumnsCoverOnce | examples/pico_explorer_encoder/demo.cpp:144-163 | every sample of the reading window falls in exactly one column |
| Plot.CarriedStep | examples/pico_explorer_encoder/demo.cpp:159-163 | the reading carried out of a column is the one the closed form carries into the next |
| Plot.DrawColumns | examples/pico_explorer_encoder/demo.cpp:143-178 | the column loop gives one state per column, each equal to the reference state for its sub-window |
| Plot.AlignStart | examples/pico_explorer_encoder/demo.cpp:113-141 | without alignment the offset is 0; with it, the offset is below `READINGS_SIZE - reading_window`, a nonzero offset starts on an edge, and no earlier edge was passed |
| Plot.DrawPlot | examples/pico_explorer_encoder/demo.cpp:112-182 | `draw_plot` returns one state per column of the screen window (none if it is empty), an offset that is 0 without alignment or at zoom 1, and columns in their reference states from the aligned start |
| Plot.StartIndexInRing | examples/pico_explorer_encoder/demo.cpp:114-115 | for a position inside the ring, the 32-bit sum never wraps |
| Plot.SecondChannelShareAlignment | examples/pico_explorer_encoder/demo.cpp:321 | channel B drawn from `(pos + READINGS_SIZE - offset) % READINGS_SIZE` starts at exactly the ring index channel A was aligned to |
| Plot.PlotChannels | examples/pico_explorer_encoder/demo.cpp:316-321 | both channel plots of one refresh are drawn from channel A's aligned start; the offset is 0 unless zoom is above 4 |

## Left out

- `set_backlight` (drivers/st7789/st7789.cpp:205-211) is float `pow` gamma correction plus a PWM write. It appears only as a `Backlight(level)` step.
- The pin getters (drivers/st7789/st7789.cpp:163-185) are trivial accessors.
- `sleep_ms` timing is not modelled. Each delay is a `Sleep(ms)` step with its constant.
- `spi_write_blocking` and `gpio_put` are represented by the events they cause. The pin numbers are not modelled.
- The controller's address counter and the order in which RAMWR data fills the window are not modelled. The rotated square panel's extra 10 rows are harmless only if the window fills row by row from its start.
- The controller reads each pixel high byte first, so the frame buffer must already hold byte-swapped pixels (`Driver.ControllerSeesSwappedPixels`). How the graphics layer encodes its pen colours is not part of this model.
- Zoom.HeldAZoomsOutOnce: states the exact resulting zoom only while X stays up, because X may also change the zoom. With X arbitrary, `Zoom.HeldAActsAtMostOnce` states that A acts only on the first refresh.
- Zoom.HeldXZoomsInOnce: states the exact resulting zoom only while A stays up, because A may also change the zoom. With A arbitrary, `Zoom.HeldXActsAtMostOnce` states that X acts only on the first refresh.
- The value of `PIN_UNUSED` is defined in a header that is not part of this model. It is the `Pin.Unused` case.
- Driver.Update: requires the frame buffer to hold at least `width*height` pixels, as the constructor arranges. The `size_t` product `width * height * 2` is taken unbounded.
- `PicoExplorer::WIDTH` and the `Point` type are not part of this model. `screen_window = min(p2.x, WIDTH) - p1.x` is a parameter of `DrawPlot` and `PlotChannels`.
- The pixel calls and the `uint8_t y` loop (demo.cpp:165-177) are not modelled. Each column yields the state they would draw.
- Plot.ColumnsPartition: proved only when `screen_window * reading_window < 2^32`. Since `reading_window` is at most 10000, this holds at every zoom for any screen window narrower than 429,497 columns (`Plot.NoWrapForNarrowScreens`). When the product wraps, the loop is still modelled with the wrap, but no partition is claimed.
- Plot.DrawColumns: the reference-state equality is stated only under the same no-wrap condition. The same applies to Plot.DrawPlot and Plot.PlotChannels.
- Sampler.ScratchDefersWrites: stated only for at most `SCRATCH_SIZE` samples per redraw. Past that, later samples go straight to the ring ahead of the scratch samples copied after them, so the ring order is not preserved.
- The interrupt/main-loop concurrency is not modelled: the `volatile` buffers, and timer ticks landing mid-statement or mid-loop. Timer ticks apply only between whole main-loop steps. One consequence: a tick that stores into the scratch buffer after the copy-back loop ends but before `next_scratch_index = 0` (demo.cpp:331-334) would lose its sample. The model does not represent that interleaving.
- The A and B channels are sampled as a pair. `draw_plot` takes one channel's readings.
- The rest of demo.cpp is hardware, library or text code: the encoder `capture()` statistics, motor control, the quadrature output, the zoom label and text, the refresh timing (`MAIN_LOOP_TIME_US`), and `setup`'s hardware initialisation.

=== FILE: bytes.dfy ===
/**
 Bytes and 16-bit words as the RP2040 stores and sends them.

 The host is little-endian: a `uint16_t` lies in memory low byte first, and
 casting a word array to `char *` hands that memory order to the SPI bus.
 */
module Bytes {

  type byte = bv8
  type word = bv16

  /** Wire form the controller expects for a 16-bit value: high byte first. */
  function BigEndian(v: word): (r: seq<byte>)
    ensures |r| == 2
    ensures r[0] as word << 8 == v & 0xFF00 && r[1] as word == v & 0x00FF
  {
    [(v >> 8) as byte, (v & 0xFF) as byte]
  }

  /** Reassembles a word from its big-endian wire bytes. */
  function FromBigEndian(hi: byte, lo: byte): (v: word)
    ensures v >> 8 == hi as word && v & 0xFF == lo as word
  {
    (hi as word << 8) | lo as word
  }

  /** The two bytes of a word in host (little-endian) memory order. */
  function MemoryBytes(w: word): (r: seq<byte>)
    ensures |r| == 2
    ensures r[0] as word == w & 0x00FF && r[1] as word << 8 == w & 0xFF00
  {
    [(w & 0xFF) as byte, (w >> 8) as byte]
  }

  /** Reassembles a word from its two bytes in host memory order. */
  function FromMemoryBytes(lo: byte, hi: byte): (w: word)
    ensures MemoryBytes(w) == [lo, hi]
  {
    (hi as word << 8) | lo as word
  }

  /** `__builtin_bswap16`: exchanges the two bytes of a word. */
  function Bswap16(w: word): (r: word)
    ensures MemoryBytes(r) == [MemoryBytes(w)[1], MemoryBytes(w)[0]]
  {
    (w << 8) | (w >> 8)
  }

  /** Big-endian encoding followed by decoding is the identity. */
  lemma BigEndianRoundTrip(v: word)
    ensures FromBigEndian(BigEndian(v)[0], BigEndian(v)[1]) == v
  {
  }

  /** Reading a word back from its memory bytes is the identity. */
  lemma MemoryBytesRoundTrip(w: word)
    ensures FromMemoryBytes(MemoryBytes(w)[0], MemoryBytes(w)[1]) == w
  {
  }

  /** Swapping twice restores the word. */
  lemma Bswap16Involution(w: word)
    ensures Bswap16(Bswap16(w)) == w
  {
  }

  /** Byte-swapping a word and then reading its memory low byte first puts
      the value on the wire big-endian: what the driver relies on. */
  lemma SwappedMemoryIsBigEndian(v: word)
    ensures MemoryBytes(Bswap16(v)) == BigEndian(v)
  {
  }

  /** A reader that takes the high byte first from host memory order gets
      the word byte-swapped. */
  lemma MemoryReadBigEndian(w: word)
    ensures FromBigEndian(MemoryBytes(w)[0], MemoryBytes(w)[1]) == Bswap16(w)
  {
  }
}

=== FILE: driver.dfy ===
/**
 The ST7789 driver's public operations (`init`, `update`, `flip`) as
 traces of steps: commands sent through the transport, blocking delays,
 and backlight writes.
 */
module Driver {
  import opened Wrappers
  import opened Bytes
  import opened Regs
  import opened Transport
  import opened Geometry

  /** The backlight pin; `Unused` is the `PIN_UNUSED` sentinel. */
  datatype Pin = Unused | Gpio(n: nat)

  /** One observable step of the driver. `Sleep` is `sleep_ms`; `Backlight`
      is `set_backlight`, whose gamma curve and PWM write are not modelled. */
  datatype Step = Send(cmd: Command) | Sleep(ms: nat) | Backlight(level: byte)

  function Cmd(op: byte): Step
  {
    Send(Command(op, None))
  }

  function CmdData(op: byte, data: seq<byte>): Step
  {
    Send(Command(op, Some(data)))
  }

  /** Reset, then the size-independent mode and analogue trim registers. */
  const CommonInit: seq<Step> := [
    Cmd(SWRESET),
    Sleep(150),
    Cmd(TEON),
    CmdData(COLMOD, [0x05]),
    CmdData(PORCTRL, [0x0c, 0x0c, 0x00, 0x33, 0x33]),
    CmdData(LCMCTRL, [0x2c]),
    CmdData(VDVVRHEN, [0x01]),
    CmdData(VRHS, [0x12]),
    CmdData(VDVS, [0x20]),
    CmdData(PWCTRL1, [0xa4, 0xa1]),
    CmdData(FRCTRL2, [0x0f])
  ]

  /** Gate, VCOM and gamma curves of the 240x240 panels. */
  const Gamma240: seq<Step> := [
    CmdData(GCTRL, [0x14]),
    CmdData(VCOMS, [0x37]),
    CmdData(GMCTRP1, [0xD0, 0x04, 0x0D, 0x11, 0x13, 0x2B, 0x3F, 0x54, 0x4C, 0x18, 0x0D, 0x0B, 0x1F, 0x23]),
    CmdData(GMCTRN1, [0xD0, 0x04, 0x0C, 0x11, 0x13, 0x2C, 0x3F, 0x44, 0x51, 0x2F, 0x1F, 0x1F, 0x20, 0x23])
  ]

  /** Gate, VCOM, register 0xD6 and gamma curves of the 320x240 panels. */
  const Gamma320: seq<Step> := [
    CmdData(GCTRL, [0x35]),
    CmdData(VCOMS, [0x1f]),
    CmdData(UNNAMED_D6, [0xa1]),
    CmdData(GMCTRP1, [0xD0, 0x08, 0x11, 0x08, 0x0C, 0x15, 0x39, 0x33, 0x50, 0x36, 0x13, 0x14, 0x29, 0x2D]),
    CmdData(GMCTRN1, [0xD0, 0x08, 0x10, 0x08, 0x06, 0x06, 0x39, 0x44, 0x51, 0x0B, 0x16, 0x14, 0x2F, 0x31])
  ]

  /** Inversion on, sleep out, display on, then the settle delay. */
  const DisplayOn: seq<Step> := [Cmd(INVON), Cmd(SLPOUT), Cmd(DISPON), Sleep(100)]

  predicate Is240x240(p: Panel)
  {
    p.width == 240 && p.height == 240
  }

  predicate Is320Class(p: Panel)
  {
    (p.width == 320 && p.height == 240) || (p.width == 240 && p.height == 320)
  }

  /** The two independent size checks of the gamma step. They exclude each
      other, so at most one block is sent, and every command in it carries
      its parameter bytes. */
  function GammaBlock(p: Panel): (steps: seq<Step>)
    ensures |steps| == if Is240x240(p) then 4 else if Is320Class(p) then 5 else 0
    ensures forall i :: 0 <= i < |steps| ==> steps[i].Send? && steps[i].cmd.data.Some?
  {
    (if Is240x240(p) then Gamma240 else []) + (if Is320Class(p) then Gamma320 else [])
  }

  function Sends(cs: seq<Command>): (steps: seq<Step>)
    ensures |steps| == |cs|
    ensures forall i :: 0 <= i < |cs| ==> steps[i] == Send(cs[i])
  {
    if cs == [] then [] else [Send(cs[0])] + Sends(cs[1..])
  }

  /** The opcode contributed by a single step. */
  function StepOpcode(s: Step): seq<byte>
  {
    if s.Send? then [s.cmd.opcode] else []
  }

  /** The opcodes of the commands a trace sends, in order. */
  function Opcodes(steps: seq<Step>): seq<byte>
  {
    if steps == [] then [] else StepOpcode(steps[0]) + Opcodes(steps[1..])
  }

  /** The commands of a trace, in order, for the transport. */
  function Commands(steps: seq<Step>): seq<Command>
  {
    if steps == [] then []
    else (if steps[0].Send? then [steps[0].cmd] else []) + Commands(steps[1..])
  }

  /** The frame buffer as the bus sees it: each 16-bit pixel in host
      memory order, row-major, as `(const char *)frame_buffer` sends it. */
  function FrameBytes(px: seq<word>): (bs: seq<byte>)
    ensures |bs| == 2 * |px|
  {
    if px == [] then [] else MemoryBytes(px[0]) + FrameBytes(px[1..])
  }

  /** Inverse of `FrameBytes`: pairs of host-memory-order bytes back into
      pixels. This is not how the controller reads them (it takes the high
      byte of each pixel first); it only shows that nothing is lost. */
  function DecodeFrame(bs: seq<byte>): (px: seq<word>)
    requires |bs| % 2 == 0
    ensures |px| == |bs| / 2
    decreases |bs|
  {
    if bs == [] then [] else [FromMemoryBytes(bs[0], bs[1])] + DecodeFrame(bs[2..])
  }

  /** The payload is the frame buffer's bytes in host memory order, lossless. */
  lemma {:induction false} FrameBytesRoundTrip(px: seq<word>)
    ensures DecodeFrame(FrameBytes(px)) == px
  {
    if px != [] {
      FrameBytesRoundTrip(px[1..]);
      MemoryBytesRoundTrip(px[0]);
      var bs := FrameBytes(px);
      assert bs[2..] == FrameBytes(px[1..]);
      assert [px[0]] + px[1..] == px;
    }
  }

  /** Pixel `k` occupies bytes `2k` and `2k + 1` of the payload, low byte
      first. */
  lemma {:induction false} FrameBytesAt(px: seq<word>, k: nat)
    requires k < |px|
    ensures FrameBytes(px)[2 * k] == MemoryBytes(px[k])[0]
    ensures FrameBytes(px)[2 * k + 1] == MemoryBytes(px[k])[1]
    decreases k
  {
    var bs := FrameBytes(px);
    assert bs == MemoryBytes(px[0]) + FrameBytes(px[1..]);
    if k > 0 {
      FrameBytesAt(px[1..], k - 1);
      assert bs[2 * k] == FrameBytes(px[1..])[2 * (k - 1)];
      assert bs[2 * k + 1] == FrameBytes(px[1..])[2 * (k - 1) + 1];
    }
  }

  /** The controller reads each 16-bit pixel high byte first, so it sees
      every frame-buffer pixel byte-swapped: the buffer must already hold
      swapped pixels for the colours to come out right. */
  lemma ControllerSeesSwappedPixels(p: Panel, fb: seq<word>, k: nat)
    requires |fb| >= p.width * p.height && k < p.width * p.height
    ensures var d := Update(p, fb).data.value;
      FromBigEndian(d[2 * k], d[2 * k + 1]) == Bswap16(fb[k])
  {
    var px := fb[..p.width * p.height];
    FrameBytesAt(px, k);
    MemoryReadBigEndian(px[k]);
  }

  /** `update()`: one RAMWR carrying the first `width*height` pixels. */
  function Update(p: Panel, fb: seq<word>): (c: Command)
    requires |fb| >= p.width * p.height
    ensures c.opcode == RAMWR && c.data.Some?
    ensures |c.data.value| == p.width * p.height * 2
    ensures DecodeFrame(c.data.value) == fb[..p.width * p.height]
  {
    FrameBytesRoundTrip(fb[..p.width * p.height]);
    Command(RAMWR, Some(FrameBytes(fb[..p.width * p.height])))
  }

  /** Everything `init` sends before the geometry. */
  function PowerUp(p: Panel): seq<Step>
  {
    CommonInit + GammaBlock(p) + DisplayOn
  }

  /** With a backlight pin: send the (cleared) frame, wait, light up. */
  function FirstFrame(p: Panel, bl: Pin, fb: seq<word>): (steps: seq<Step>)
    requires |fb| >= p.width * p.height
    ensures |steps| == if bl != Unused then 3 else 0
    ensures bl != Unused ==>
      && steps[0].Send? && steps[0].cmd.opcode == RAMWR && steps[0].cmd.data.Some?
      && |steps[0].cmd.data.value| == p.width * p.height * 2
      && steps[2] == Backlight(255)
  {
    if bl != Unused then [Send(Update(p, fb)), Sleep(50), Backlight(255)] else []
  }

  /** `init()`: the trace it produces and the globals it leaves. */
  function Init(p: Panel, bl: Pin, fb: seq<word>, g: Globals): (r: (seq<Step>, Globals))
    requires |fb| >= p.width * p.height
    ensures |r.0| == |PowerUp(p)| + if bl != Unused then 6 else 3
    ensures r.0[|r.0| - 1] == Backlight(255) <==> bl != Unused
  {
    var geometry := ConfigureDisplay(p, false, g);
    (PowerUp(p) + Sends(geometry.0) + FirstFrame(p, bl, fb), geometry.1)
  }

  /** `flip()`: the geometry commands again, rotated by 180 degrees. */
  function Flip(p: Panel, g: Globals): (r: (seq<Step>, Globals))
    ensures |r.0| == 3 && forall i :: 0 <= i < 3 ==> r.0[i].Send?
    ensures Classify(p).Some? ==> r.1.madctl & ROW_ORDER != 0
    ensures Classify(p).None? ==> r.1.madctl == g.madctl
  {
    var geometry := ConfigureDisplay(p, true, g);
    (Sends(geometry.0), geometry.1)
  }

  lemma OpcodesCons(a: seq<Step>)
    requires a != []
    ensures Opcodes(a) == StepOpcode(a[0]) + Opcodes(a[1..])
  {
  }

  lemma {:induction false} OpcodesAppend(a: seq<Step>, b: seq<Step>)
    ensures Opcodes(a + b) == Opcodes(a) + Opcodes(b)
  {
    if a == [] {
      assert a + b == b;
    } else {
      var ab := a + b;
      assert ab[1..] == a[1..] + b;
      OpcodesAppend(a[1..], b);
      calc {
        Opcodes(ab);
        { OpcodesCons(ab); }
        StepOpcode(ab[0]) + Opcodes(ab[1..]);
        StepOpcode(a[0]) + (Opcodes(a[1..]) + Opcodes(b));
        { OpcodesCons(a); }
        Opcodes(a) + Opcodes(b);
      }
    }
  }

  /** The opcodes of a trace that only sends commands. */
  lemma {:induction false} OpcodesOfCommandsOnly(steps: seq<Step>)
    requires forall i :: 0 <= i < |steps| ==> steps[i].Send?
    ensures |Opcodes(steps)| == |steps|
    ensures forall i :: 0 <= i < |steps| ==> Opcodes(steps)[i] == steps[i].cmd.opcode
  {
    if steps != [] {
      OpcodesOfCommandsOnly(steps[1..]);
      OpcodesCons(steps);
    }
  }

  lemma {:induction false} OpcodesOfSends(cs: seq<Command>)
    ensures |Opcodes(Sends(cs))| == |cs|
    ensures forall i :: 0 <= i < |cs| ==> Opcodes(Sends(cs))[i] == cs[i].opcode
  {
    if cs != [] {
      OpcodesOfSends(cs[1..]);
      assert Sends(cs)[1..] == Sends(cs[1..]);
    }
  }

  /** The opcodes of the gamma step for each size class. */
  function GammaOpcodes(p: Panel): seq<byte>
  {
    if Is240x240(p) then [GCTRL, VCOMS, GMCTRP1, GMCTRN1]
    else if Is320Class(p) then [GCTRL, VCOMS, UNNAMED_D6, GMCTRP1, GMCTRN1]
    else []
  }

  /** The calibration and power-up opcodes `init` sends before the geometry. */
  function SetupOpcodes(p: Panel): seq<byte>
  {
    [SWRESET, TEON, COLMOD, PORCTRL, LCMCTRL, VDVVRHEN, VRHS, VDVS, PWCTRL1, FRCTRL2]
      + GammaOpcodes(p)
      + [INVON, SLPOUT, DISPON]
  }

  lemma OpcodesOfCommonInit()
    ensures Opcodes(CommonInit) == [SWRESET, TEON, COLMOD, PORCTRL, LCMCTRL, VDVVRHEN, VRHS, VDVS, PWCTRL1, FRCTRL2]
  {
    OpcodesCons(CommonInit);
    OpcodesCons(CommonInit[1..]);
    assert CommonInit[1..][1..] == CommonInit[2..];
    OpcodesOfCommandsOnly(CommonInit[2..]);
  }

  lemma OpcodesOfGammaBlock(p: Panel)
    ensures Opcodes(GammaBlock(p)) == GammaOpcodes(p)
  {
    var a := if Is240x240(p) then Gamma240 else [];
    var b := if Is320Class(p) then Gamma320 else [];
    OpcodesAppend(a, b);
    OpcodesOfCommandsOnly(a);
    OpcodesOfCommandsOnly(b);
  }

  lemma OpcodesOfDisplayOn()
    ensures Opcodes(DisplayOn) == [INVON, SLPOUT, DISPON]
  {
    var on := DisplayOn[..3];
    assert on + [Sleep(100)] == DisplayOn;
    OpcodesAppend(on, [Sleep(100)]);
    OpcodesOfCommandsOnly(on);
    OpcodesCons([Sleep(100)]);
  }

  lemma SetupOpcodesOfInit(p: Panel)
    ensures Opcodes(PowerUp(p)) == SetupOpcodes(p)
  {
    OpcodesAppend(CommonInit, GammaBlock(p));
    OpcodesAppend(CommonInit + GammaBlock(p), DisplayOn);
    OpcodesOfCommonInit();
    OpcodesOfGammaBlock(p);
    OpcodesOfDisplayOn();
  }

  lemma OpcodesOfFirstFrame(p: Panel, bl: Pin, fb: seq<word>)
    requires |fb| >= p.width * p.height
    ensures Opcodes(FirstFrame(p, bl, fb)) == if bl != Unused then [RAMWR] else []
  {
    var f := FirstFrame(p, bl, fb);
    if bl != Unused {
      OpcodesCons(f);
      OpcodesCons(f[1..]);
      OpcodesCons(f[2..]);
      assert f[2..][1..] == [];
    }
  }

  /** `init` sends, in order: reset, the common setup, the gamma block of
      the size class (none for other sizes), inversion/sleep-out/display-on,
      CASET/RASET/MADCTL, and RAMWR only when a backlight pin is set. */
  lemma InitOpcodeOrder(p: Panel, bl: Pin, fb: seq<word>, g: Globals)
    requires |fb| >= p.width * p.height
    ensures Opcodes(Init(p, bl, fb, g).0) ==
      SetupOpcodes(p) + [CASET, RASET, MADCTL] + (if bl != Unused then [RAMWR] else [])
  {
    var geometry := Sends(ConfigureDisplay(p, false, g).0);
    assert Init(p, bl, fb, g).0 == PowerUp(p) + geometry + FirstFrame(p, bl, fb);
    GeometryStepOpcodes(p, false, g);
    SetupOpcodesOfInit(p);
    OpcodesOfFirstFrame(p, bl, fb);
    OpcodesAppend3(PowerUp(p), geometry, FirstFrame(p, bl, fb));
  }

  lemma OpcodesAppend3(a: seq<Step>, b: seq<Step>, c: seq<Step>)
    ensures Opcodes(a + b + c) == Opcodes(a) + Opcodes(b) + Opcodes(c)
  {
    OpcodesAppend(a, b);
    OpcodesAppend(a + b, c);
  }

  /** `init` starts with the software reset and its 150 ms settle delay,
      programs the unrotated geometry right after the display-on delay, and
      leaves the globals as that geometry call leaves them. With a backlight
      pin it then sends the whole frame, waits 50 ms and turns the backlight
      fully on; without one the geometry is the end of the trace. */
  lemma InitStructure(p: Panel, bl: Pin, fb: seq<word>, g: Globals)
    requires |fb| >= p.width * p.height
    ensures var steps := Init(p, bl, fb, g).0;
      var n := |PowerUp(p)|;
      && steps[0] == Send(Command(SWRESET, None)) && steps[1] == Sleep(150)
      && steps[n - 1] == Sleep(100)
      && steps[n..n + 3] == Sends(ConfigureDisplay(p, false, g).0)
      && Init(p, bl, fb, g).1 == ConfigureDisplay(p, false, g).1
      && (bl != Unused ==>
            |steps| == n + 6 && steps[n + 3..] == [Send(Update(p, fb)), Sleep(50), Backlight(255)])
      && (bl == Unused ==> |steps| == n + 3)
  {
    var up := PowerUp(p);
    var geometry := Sends(ConfigureDisplay(p, false, g).0);
    var front := up + geometry;
    var steps := front + FirstFrame(p, bl, fb);
    assert Init(p, bl, fb, g).0 == steps;
    PowerUpEnds(p);
    assert |geometry| == 3;
    assert front[..|up|] == up && front[|up|..] == geometry;
    assert steps[..|front|] == front && steps[|front|..] == FirstFrame(p, bl, fb);
    assert steps[..|up|] == up;
    assert steps[|up|..|up| + 3] == front[|up|..];
  }

  /** The first and last steps of the power-up sequence. */
  lemma PowerUpEnds(p: Panel)
    ensures var up := PowerUp(p);
      && |up| >= 3
      && up[0] == Send(Command(SWRESET, None)) && up[1] == Sleep(150)
      && up[|up| - 1] == Sleep(100)
  {
    var up := PowerUp(p);
    assert up[..|CommonInit|] == CommonInit;
    assert up[|up| - |DisplayOn|..] == DisplayOn;
  }

  /** `configure_display` sends exactly CASET with 4 payload bytes, RASET
      with 4 and MADCTL with 1, in that order. */
  lemma GeometryOpcodes(p: Panel, rotate180: bool, g: Globals)
    ensures var cs := ConfigureDisplay(p, rotate180, g).0;
      && |cs| == 3 && cs[0].opcode == CASET && cs[1].opcode == RASET && cs[2].opcode == MADCTL
      && cs[0].data.Some? && |cs[0].data.value| == 4
      && cs[1].data.Some? && |cs[1].data.value| == 4
      && cs[2].data.Some? && |cs[2].data.value| == 1
  {
  }

  lemma GeometryStepOpcodes(p: Panel, rotate180: bool, g: Globals)
    ensures Opcodes(Sends(ConfigureDisplay(p, rotate180, g).0)) == [CASET, RASET, MADCTL]
  {
    var cs := ConfigureDisplay(p, rotate180, g).0;
    GeometryOpcodes(p, rotate180, g);
    OpcodesOfSends(cs);
  }

  lemma GeometryNotInSetup(p: Panel)
    ensures CASET !in SetupOpcodes(p) && RASET !in SetupOpcodes(p) && MADCTL !in SetupOpcodes(p)
  {
  }

  /** `flip` re-sends only CASET, RASET and MADCTL: none of the reset,
      calibration, gamma or power-up commands of `init`. */
  lemma FlipSendsOnlyGeometry(p: Panel, g: Globals)
    ensures Opcodes(Flip(p, g).0) == [CASET, RASET, MADCTL]
    ensures forall op :: op in Opcodes(Flip(p, g).0) ==> op !in SetupOpcodes(p)
  {
    GeometryStepOpcodes(p, true, g);
    GeometryNotInSetup(p);
  }

  /** `init` followed by `flip` on a known panel: the flip programs exactly
      the rotated table entry. */
  lemma InitThenFlip(p: Panel, bl: Pin, fb: seq<word>, g: Globals)
    requires |fb| >= p.width * p.height
    requires Classify(p).Some?
    ensures Flip(p, Init(p, bl, fb, g).1).0 == Sends(GeometryCommands(Resolve(p, true).value))
  {
  }

  /** What reaches the wire: the framing of every command in the trace. */
  function Wire(steps: seq<Step>): seq<Event>
  {
    FrameAll(Commands(steps))
  }

  /** Any trace of the driver puts well-bracketed transactions on the bus
      from which the receiver reads back exactly the commands sent. */
  lemma WireIsWellFormed(steps: seq<Step>)
    ensures Bracketed(Wire(steps), false)
    ensures Deframe(Wire(steps)) == Some(Commands(steps))
  {
    FrameAllBracketed(Commands(steps));
    DeframeFrameAll(Commands(steps));
  }
}

=== FILE: geometry.dfy ===
/**
 Panel geometry (`ST7789::configure_display`): the column window (CASET),
 row window (RASET) and orientation bits (MADCTL) for each known panel,
 and the three commands that program them.

 The source keeps `madctl`, `caset[2]` and `raset[2]` as module-level
 globals that persist between calls and byte-swaps the window words in
 place before sending them, so the model threads that state through.
 */
module Geometry {
  import opened Wrappers
  import opened Bytes
  import opened Regs
  import opened Transport

  /** Panel identity, fixed at construction. */
  datatype Panel = Panel(width: nat, height: nat, round: bool)

  /** The module-level `madctl`, `caset[0..1]` and `raset[0..1]` as they
      stand between calls: after a call, the window words hold their
      byte-swapped values. */
  datatype Globals = Globals(madctl: byte, caset0: word, caset1: word, raset0: word, raset1: word)

  /** Zero-initialised statics at power-on. */
  const PowerOn: Globals := Globals(0, 0, 0, 0, 0)

  /** The panels the driver knows. */
  datatype PanelClass =
    | Square240       // 240x240 square breakout
    | Round240        // 240x240 round breakout
    | Display240x135  // Pico Display
    | Display135x240  // Pico Display at 90 degrees
    | Display320x240  // Pico Display 2.0
    | Display240x320  // Pico Display 2.0 at 90 degrees

  function Classify(p: Panel): (c: Option<PanelClass>)
    ensures c.Some? <==>
      (p.width, p.height) in {(240, 240), (240, 135), (135, 240), (320, 240), (240, 320)}
    ensures c == Some(Round240) <==> p.width == 240 && p.height == 240 && p.round
  {
    if p.width == 240 && p.height == 240 then Some(if p.round then Round240 else Square240)
    else if p.width == 240 && p.height == 135 then Some(Display240x135)
    else if p.width == 135 && p.height == 240 then Some(Display135x240)
    else if p.width == 320 && p.height == 240 then Some(Display320x240)
    else if p.width == 240 && p.height == 320 then Some(Display240x320)
    else None
  }

  /** An inclusive address window, first..last. */
  datatype Window = Window(first: word, last: word)

  datatype Geometry = Geometry(cols: Window, rows: Window, madctl: byte)

  /** The calibration table: windows into the controller's 240x320 raster
      and the MADCTL value, per panel and rotation. */
  function Calibration(c: PanelClass, rotate180: bool): (geo: Geometry)
    ensures geo.cols.first <= geo.cols.last && geo.rows.first <= geo.rows.last
    ensures geo.madctl & SWAP_XY != 0 ==> geo.cols.last < 320 && geo.rows.last < 240
    ensures geo.madctl & SWAP_XY == 0 ==> geo.cols.last < 240
    ensures geo.rows.last < 320 <==> !(c == Square240 && rotate180)
    ensures geo.madctl & ROW_ORDER != 0 <==> rotate180
  {
    match c
    case Square240 =>
      Geometry(Window(0, 239), if rotate180 then Window(80, 329) else Window(0, 239),
               if rotate180 then 0xC4 else 0x04)
    case Round240 =>
      Geometry(Window(0, 239), Window(40, 279), if rotate180 then 0xC4 else 0x04)
    case Display240x135 =>
      Geometry(Window(40, 279), Window(53, 187), if rotate180 then 0xB0 else 0x70)
    case Display135x240 =>
      Geometry(Window(52, 186), Window(40, 279), if rotate180 then 0xC0 else 0x00)
    case Display320x240 =>
      Geometry(Window(0, 319), Window(0, 239), if rotate180 then 0xB0 else 0x70)
    case Display240x320 =>
      Geometry(Window(0, 239), Window(0, 319), if rotate180 then 0xC0 else 0x00)
  }

  /** Geometry of a known panel; None when the size is not in the table. */
  function Resolve(p: Panel, rotate180: bool): (r: Option<Geometry>)
    ensures r.Some? <==> Classify(p).Some?
  {
    match Classify(p)
    case Some(c) => Some(Calibration(c, rotate180))
    case None => None
  }

  /** The three commands that program a geometry, with each window value
      serialised big-endian, start before end. */
  function GeometryCommands(geo: Geometry): (cs: seq<Command>)
  {
    [ Command(CASET, Some(BigEndian(geo.cols.first) + BigEndian(geo.cols.last))),
      Command(RASET, Some(BigEndian(geo.rows.first) + BigEndian(geo.rows.last))),
      Command(MADCTL, Some([geo.madctl])) ]
  }

  /** The globals after the five independent `if` branches of
      `configure_display` (before the byte swap): the table entry for a
      known size, and the untouched previous contents otherwise. */
  function AssignGlobals(p: Panel, rotate180: bool, g: Globals): (a: Globals)
    ensures Resolve(p, rotate180).Some? ==>
      var geo := Resolve(p, rotate180).value;
      a == Globals(geo.madctl, geo.cols.first, geo.cols.last, geo.rows.first, geo.rows.last)
    ensures Resolve(p, rotate180).None? ==> a == g
  {
    var w, h := p.width, p.height;
    var s1 :=
      if w == 240 && h == 240 then
        Globals((if rotate180 then COL_ORDER | ROW_ORDER else 0) | HORIZ_ORDER, 0, 239,
                if p.round then 40 else if rotate180 then 80 else 0,
                if p.round then 279 else if rotate180 then 329 else 239)
      else g;
    var s2 :=
      if w == 240 && h == 135 then
        Globals((if rotate180 then ROW_ORDER else COL_ORDER) | SWAP_XY | SCAN_ORDER, 40, 279, 53, 187)
      else s1;
    var s3 :=
      if w == 135 && h == 240 then
        Globals(if rotate180 then COL_ORDER | ROW_ORDER else 0, 52, 186, 40, 279)
      else s2;
    var s4 :=
      if w == 320 && h == 240 then
        Globals((if rotate180 then ROW_ORDER else COL_ORDER) | SWAP_XY | SCAN_ORDER, 0, 319, 0, 239)
      else s3;
    if w == 240 && h == 320 then
      Globals(if rotate180 then COL_ORDER | ROW_ORDER else 0, 0, 239, 0, 319)
    else s4
  }

  /** The in-place byte swap of the four window words. */
  function SwapWindows(a: Globals): Globals
  {
    Globals(a.madctl, Bswap16(a.caset0), Bswap16(a.caset1), Bswap16(a.raset0), Bswap16(a.raset1))
  }

  /** The three commands sending the raw memory of the globals:
      `(char *)caset`, `(char *)raset` and `&madctl`. */
  function SendGlobals(s: Globals): seq<Command>
  {
    [ Command(CASET, Some(MemoryBytes(s.caset0) + MemoryBytes(s.caset1))),
      Command(RASET, Some(MemoryBytes(s.raset0) + MemoryBytes(s.raset1))),
      Command(MADCTL, Some([s.madctl])) ]
  }

  /** Sending the swapped globals is sending the assigned values big-endian. */
  lemma SendSwappedIsBigEndian(a: Globals)
    ensures SendGlobals(SwapWindows(a)) ==
      GeometryCommands(Geometry(Window(a.caset0, a.caset1), Window(a.raset0, a.raset1), a.madctl))
  {
    SwappedMemoryIsBigEndian(a.caset0);
    SwappedMemoryIsBigEndian(a.caset1);
    SwappedMemoryIsBigEndian(a.raset0);
    SwappedMemoryIsBigEndian(a.raset1);
  }

  /**
   `configure_display(rotate180)`: assign, swap in place, send the raw
   memory. For a known panel that is the table entry serialised
   big-endian; otherwise the previous contents are swapped and sent again.
   */
  function ConfigureDisplay(p: Panel, rotate180: bool, g: Globals): (r: (seq<Command>, Globals))
    ensures |r.0| == 3
    ensures Resolve(p, rotate180).Some? ==>
      var geo := Resolve(p, rotate180).value;
      && r.0 == GeometryCommands(geo)
      && r.1 == Globals(geo.madctl, Bswap16(geo.cols.first), Bswap16(geo.cols.last),
                        Bswap16(geo.rows.first), Bswap16(geo.rows.last))
    ensures Resolve(p, rotate180).None? ==>
      && r.0 == GeometryCommands(Geometry(Window(g.caset0, g.caset1), Window(g.raset0, g.raset1), g.madctl))
      && r.1 == Globals(g.madctl, Bswap16(g.caset0), Bswap16(g.caset1), Bswap16(g.raset0), Bswap16(g.raset1))
  {
    var a := AssignGlobals(p, rotate180, g);
    var stored := SwapWindows(a);
    SendSwappedIsBigEndian(a);
    (SendGlobals(stored), stored)
  }

  /** With no rotation every known panel's column window is exactly
      `width` columns wide and its row window exactly `height` rows tall. */
  lemma WindowsSpanPanel(p: Panel)
    requires Classify(p).Some?
    ensures var geo := Resolve(p, false).value;
      && geo.cols.last as int - geo.cols.first as int + 1 == p.width
      && geo.rows.last as int - geo.rows.first as int + 1 == p.height
  {
    match Classify(p).value
    case Square240 =>
    case Round240 =>
    case Display240x135 =>
    case Display135x240 =>
    case Display320x240 =>
    case Display240x320 =>
  }

  /** Rotated, the column window still spans `width` columns. The row
      window spans `height` rows except on the square 240x240 panel, whose
      rotated window 80..329 is 250 rows long: it starts 80 = 320 - 240
      rows into the controller's 320-row raster, and the `width * height`
      pixels of a frame fill only its first 240 rows, 80..319. */
  lemma RotatedWindows(p: Panel)
    requires Classify(p).Some?
    ensures var geo := Resolve(p, true).value;
      && geo.cols.last as int - geo.cols.first as int + 1 == p.width
      && (Classify(p) != Some(Square240) ==> geo.rows.last as int - geo.rows.first as int + 1 == p.height)
      && (Classify(p) == Some(Square240) ==>
            geo.rows.first as int == 320 - p.height && geo.rows.last as int - geo.rows.first as int + 1 == p.height + 10
            && geo.rows.first as int + p.height - 1 == 319 < geo.rows.last as int)
  {
    var c := Classify(p).value;
    assert Resolve(p, true).value == Calibration(c, true);
    match c
    case Square240 =>
    case Round240 =>
    case Display240x135 =>
    case Display135x240 =>
    case Display320x240 =>
    case Display240x320 =>
  }

  /** Rotation never moves the column window; it moves the row window only
      for the square (non-round) 240x240 panel. */
  lemma RotationMovesOnlySquareRows(p: Panel)
    requires Classify(p).Some?
    ensures Resolve(p, true).value.cols == Resolve(p, false).value.cols
    ensures Resolve(p, true).value.rows != Resolve(p, false).value.rows <==> Classify(p) == Some(Square240)
  {
  }

  /** The orientation bits mean what their names say, for every known
      panel: ROW_ORDER exactly when rotated, SWAP_XY exactly for the
      landscape panels, COL_ORDER when rotated on portrait/square panels and
      when not rotated on landscape ones, and the RGB (BGR) bit never. */
  lemma MadctlBits(p: Panel, rotate180: bool)
    requires Classify(p).Some?
    ensures var m := Resolve(p, rotate180).value.madctl;
      && (m & ROW_ORDER != 0 <==> rotate180)
      && (m & SWAP_XY != 0 <==> p.width > p.height)
      && (m & SCAN_ORDER != 0 <==> p.width > p.height)
      && (m & COL_ORDER != 0 <==> (rotate180 <==> p.width <= p.height))
      && (m & HORIZ_ORDER != 0 <==> p.width == p.height)
      && m & RGB == 0
  {
    match Classify(p).value
    case Square240 =>
    case Round240 =>
    case Display240x135 =>
    case Display135x240 =>
    case Display320x240 =>
    case Display240x320 =>
  }

  /** Pico Display: CASET payload 00 28 01 17, RASET payload 00 35 00 BB. */
  lemma PicoDisplayWireBytes(g: Globals)
    ensures var cs := ConfigureDisplay(Panel(240, 135, false), false, g).0;
      && cs[0] == Command(CASET, Some([0x00, 0x28, 0x01, 0x17]))
      && cs[1] == Command(RASET, Some([0x00, 0x35, 0x00, 0xBB]))
      && cs[2] == Command(MADCTL, Some([0x70]))
  {
    assert BigEndian(40) == [0x00, 0x28];
    assert BigEndian(279) == [0x01, 0x17];
    assert BigEndian(53) == [0x00, 0x35];
    assert BigEndian(187) == [0x00, 0xBB];
    assert BigEndian(40) + BigEndian(279) == [0x00, 0x28, 0x01, 0x17];
    assert BigEndian(53) + BigEndian(187) == [0x00, 0x35, 0x00, 0xBB];
  }

  /** An unknown size from the zero-initialised globals sends all-zero
      windows and a zero MADCTL, and leaves the globals zero. */
  lemma UnknownPanelFromPowerOn(p: Panel, rotate180: bool)
    requires Classify(p).None?
    ensures var (cs, g') := ConfigureDisplay(p, rotate180, PowerOn);
      && cs == [Command(CASET, Some([0, 0, 0, 0])), Command(RASET, Some([0, 0, 0, 0])), Command(MADCTL, Some([0]))]
      && g' == PowerOn
  {
    assert BigEndian(0) + BigEndian(0) == [0, 0, 0, 0];
    assert Bswap16(0) == 0;
  }

  /** The globals are shared by every driver instance. After a Pico
      Display has been configured, a driver of unknown size swaps the
      stored words back to host order and sends their raw memory, so each
      window value reaches the wire byte-swapped: column 40 as 0x2800. */
  lemma UnknownAfterPicoDisplay(p: Panel, g: Globals)
    requires Classify(p).None?
    ensures var after := ConfigureDisplay(Panel(240, 135, false), false, g).1;
      ConfigureDisplay(p, false, after).0[0] == Command(CASET, Some([0x28, 0x00, 0x17, 0x01]))
  {
    assert Bswap16(40) == 0x2800;
    assert Bswap16(279) == 0x1701;
    assert BigEndian(0x2800) + BigEndian(0x1701) == [0x28, 0x00, 0x17, 0x01];
  }

  /** For an unknown size each call swaps the stored words once more, so
      two calls restore the globals whatever they held. */
  lemma UnknownPanelTwiceRestores(p: Panel, r1: bool, r2: bool, g: Globals)
    requires Classify(p).None?
    ensures ConfigureDisplay(p, r2, ConfigureDisplay(p, r1, g).1).1 == g
  {
    Bswap16Involution(g.caset0);
    Bswap16Involution(g.caset1);
    Bswap16Involution(g.raset0);
    Bswap16Involution(g.raset1);
  }

  /** For a known panel the commands depend only on the panel and the
      rotation, never on what earlier calls left in the globals. */
  lemma KnownPanelIgnoresHistory(p: Panel, rotate180: bool, g1: Globals, g2: Globals)
    requires Classify(p).Some?
    ensures ConfigureDisplay(p, rotate180, g1) == ConfigureDisplay(p, rotate180, g2)
  {
  }

  /** Unrotated, then rotated, then unrotated again reproduces the first
      commands byte for byte, for every panel and every prior state. */
  lemma FlipBackReproduces(p: Panel, g: Globals)
    ensures var (c1, g1) := ConfigureDisplay(p, false, g);
      var (_, g2) := ConfigureDisplay(p, true, g1);
      ConfigureDisplay(p, false, g2).0 == c1
  {
    if Classify(p).None? {
      UnknownPanelTwiceRestores(p, false, true, g);
    }
  }
}

=== FILE: plot.dfy ===
/**
 The encoder demo's signal plot (`draw_plot`): the last `reading_window`
 samples of a ring of boolean readings are spread over `screen_window`
 screen columns, each column drawn LOW, HIGH or as a TRANSITION line.
 Optionally the window is first moved back to the nearest earlier
 high-to-low edge so that successive frames line up.

 The pixel calls are replaced by the per-column state they draw.
 Unsigned 32-bit arithmetic wraps modulo 2^32 and is written out.
 */
module Plot {
  import opened Sampler

  const U32: nat := 0x1_0000_0000
  const I32_MIN: int := -0x8000_0000
  const I32_MAX: int := 0x7FFF_FFFF

  /** The zoom level above which the main loop asks for edge alignment. */
  const EDGE_ALIGN_ABOVE_ZOOM: nat := 4

  datatype DrawState = DrawLow | DrawHigh | DrawTransition

  /** Samples shown at a zoom level: `READINGS_SIZE / current_zoom_level`. */
  function ReadingWindow(zoom: nat): (rw: nat)
    requires zoom >= 1
    ensures rw <= READINGS_SIZE
    ensures zoom == 1 ==> rw == READINGS_SIZE
  {
    READINGS_SIZE / zoom
  }

  /** `start_index_no_modulus`, a `uint32_t` sum. */
  function StartNoModulus(pos: nat, zoom: nat): nat
    requires zoom >= 1
  {
    (pos + (READINGS_SIZE - ReadingWindow(zoom))) % U32
  }

  /** Ring index of the oldest sample shown. */
  function StartIndex(pos: nat, zoom: nat): (s: nat)
    requires zoom >= 1
    ensures s < READINGS_SIZE
  {
    StartNoModulus(pos, zoom) % READINGS_SIZE
  }

  /** `align_window`: the `uint32_t` difference of the two positions is
      the number of older samples not shown, whatever the wrap. */
  function AlignWindow(pos: nat, zoom: nat): (w: nat)
    requires zoom >= 1 && pos < U32
    ensures w == READINGS_SIZE - ReadingWindow(zoom)
  {
    (StartNoModulus(pos, zoom) - pos) % U32
  }

  /** Ring index `i` slots before `start`. */
  function Back(start: nat, i: nat): (r: nat)
    requires i <= READINGS_SIZE
    ensures r < READINGS_SIZE
  {
    (start + (READINGS_SIZE - i)) % READINGS_SIZE
  }

  /** `i` slots back from `start` the signal is low and one slot later it
      is high: the sample is the low side of a rising edge seen forwards,
      the high-to-low transition the backwards search looks for. */
  predicate EdgeAt(readings: seq<bool>, start: nat, i: nat)
    requires |readings| == READINGS_SIZE
  {
    1 <= i <= READINGS_SIZE && !readings[Back(start, i)] && readings[Back(start, i - 1)]
  }

  /** The edge-alignment search: scan backwards from `start` over
      `alignWindow - 1` older samples and stop at the first edge. */
  method FindAlignment(readings: seq<bool>, start: nat, alignWindow: nat) returns (newStart: nat, offset: nat)
    requires |readings| == READINGS_SIZE && start < READINGS_SIZE && alignWindow <= READINGS_SIZE
    ensures newStart < READINGS_SIZE
    ensures offset == 0 || offset < alignWindow
    ensures newStart == Back(start, offset)
    ensures offset > 0 ==> EdgeAt(readings, start, offset)
    ensures forall i :: 1 <= i < (if offset > 0 then offset else alignWindow) ==> !EdgeAt(readings, start, i)
  {
    newStart, offset := start, 0;
    var last := readings[start % READINGS_SIZE];
    var i := 1;
    while i < alignWindow
      invariant 1 <= i <= READINGS_SIZE && (i <= alignWindow || alignWindow <= 1)
      invariant last == readings[Back(start, i - 1)]
      invariant forall j :: 1 <= j < i ==> !EdgeAt(readings, start, j)
    {
      var alignIndex := (start + (READINGS_SIZE - i)) % READINGS_SIZE;
      var alignReading := readings[alignIndex];
      if !alignReading && alignReading != last {
        newStart := alignIndex;
        offset := i;
        break;
      }
      last := alignReading;
      i := i + 1;
    }
  }

  /** The sample `k` places after `start`, as the plot reads it. */
  function Rel(readings: seq<bool>, start: nat, k: nat): bool
    requires |readings| == READINGS_SIZE
  {
    readings[(k + start) % READINGS_SIZE]
  }

  /** The state a column gets: a transition when any of its samples
      differs from the carried previous reading, otherwise that reading's
      level. */
  function Classification(readings: seq<bool>, start: nat, lo: nat, hi: nat, carried: bool): DrawState
    requires |readings| == READINGS_SIZE
  {
    if exists k :: lo <= k < hi && Rel(readings, start, k) != carried then DrawTransition
    else if carried then DrawHigh else DrawLow
  }

  /** One column of the plot: scan its samples, updating the previous
      reading as it goes and stopping at the first change. */
  method ClassifyColumn(readings: seq<bool>, start: nat, lo: nat, hi: nat, last: bool)
    returns (state: DrawState, newLast: bool)
    requires |readings| == READINGS_SIZE
    ensures state == Classification(readings, start, lo, hi, last)
    ensures newLast == if hi > lo then Rel(readings, start, hi - 1) else last
  {
    state := if last then DrawHigh else DrawLow;
    newLast := last;
    if hi > lo {
      var i := lo;
      while i < hi
        invariant lo <= i <= hi
        invariant newLast == last && state == (if last then DrawHigh else DrawLow)
        invariant forall k :: lo <= k < i ==> Rel(readings, start, k) == last
      {
        var reading := readings[(i + start) % READINGS_SIZE];
        if reading != newLast {
          assert Rel(readings, start, i) != last;
          state := DrawTransition;
          break;
        }
        newLast := reading;
        i := i + 1;
      }
      newLast := readings[((hi - 1) + start) % READINGS_SIZE];
    }
  }

  /** `reading_window_end` of column `x`: `((x + 1) * reading_window) /
      screen_window` with the product wrapping at 2^32. */
  function ColumnEnd(x: nat, rw: nat, sw: nat): nat
    requires sw > 0
  {
    ((x + 1) * rw) % U32 / sw
  }

  /** `reading_window_start` of column `x`: where the previous column ended. */
  function ColumnStart(x: nat, rw: nat, sw: nat): nat
    requires sw > 0
  {
    if x == 0 then 0 else ColumnEnd(x - 1, rw, sw)
  }

  /** The product `screen_window * reading_window` fits in 32 bits, so no
      column end wraps. */
  predicate NoWrap(rw: nat, sw: nat)
  {
    sw * rw < U32
  }

  lemma MulMono(a: nat, b: nat, c: nat)
    requires a <= b
    ensures a * c <= b * c
  {
  }

  /** Since `reading_window` never exceeds `READINGS_SIZE`, no column end
      wraps at any zoom on a screen window of at most 429,496 columns. */
  lemma NoWrapForNarrowScreens(zoom: nat, sw: nat)
    requires zoom >= 1 && sw <= 429496
    ensures NoWrap(ReadingWindow(zoom), sw)
  {
    MulMono(ReadingWindow(zoom), READINGS_SIZE, sw);
  }

  lemma MulStrict(x: nat, y: nat, d: nat)
    requires d > 0 && x * d < y * d
    ensures x < y
  {
    if y <= x {
      MulMono(y, x, d);
    }
  }

  lemma DivMono(a: nat, b: nat, d: nat)
    requires a <= b && d > 0
    ensures a / d <= b / d
  {
    var qa, qb := a / d, b / d;
    assert qa * d <= a;
    assert b < (qb + 1) * d;
    MulStrict(qa, qb + 1, d);
  }

  lemma MulDivCancel(a: nat, d: nat)
    requires d > 0
    ensures (a * d) / d == a
  {
    var q := (a * d) / d;
    assert q * d <= a * d < (q + 1) * d;
    MulStrict(q, a + 1, d);
    MulStrict(a, q + 1, d);
  }

  /** Without wrap, column `x` ends at the exact quotient. */
  lemma ColumnEndExact(x: nat, rw: nat, sw: nat)
    requires sw > 0 && x < sw && NoWrap(rw, sw)
    ensures ColumnEnd(x, rw, sw) == (x + 1) * rw / sw
  {
    MulMono(x + 1, sw, rw);
  }

  /** Column ends never decrease. */
  lemma ColumnEndMono(x: nat, y: nat, rw: nat, sw: nat)
    requires sw > 0 && x <= y < sw && NoWrap(rw, sw)
    ensures ColumnEnd(x, rw, sw) <= ColumnEnd(y, rw, sw)
  {
    ColumnEndExact(x, rw, sw);
    ColumnEndExact(y, rw, sw);
    MulMono(x + 1, y + 1, rw);
    DivMono((x + 1) * rw, (y + 1) * rw, sw);
  }

  /** The last column ends at `reading_window`. */
  lemma LastColumnEnd(rw: nat, sw: nat)
    requires sw > 0 && NoWrap(rw, sw)
    ensures ColumnEnd(sw - 1, rw, sw) == rw
  {
    ColumnEndExact(sw - 1, rw, sw);
    assert (sw - 1 + 1) * rw == rw * sw;
    MulDivCancel(rw, sw);
  }

  /** Column `x`'s window is a (possibly empty) interval inside the
      reading window. */
  lemma ColumnOrdered(x: nat, rw: nat, sw: nat)
    requires sw > 0 && x < sw && NoWrap(rw, sw)
    ensures ColumnStart(x, rw, sw) <= ColumnEnd(x, rw, sw) <= rw
  {
    LastColumnEnd(rw, sw);
    ColumnEndMono(x, sw - 1, rw, sw);
    if x > 0 {
      ColumnEndMono(x - 1, x, rw, sw);
    }
  }

  /** The per-column sub-windows are contiguous, non-decreasing, start at
      0 and end with the last column at `reading_window`. */
  lemma ColumnsPartition(rw: nat, sw: nat)
    requires sw > 0 && NoWrap(rw, sw)
    ensures ColumnStart(0, rw, sw) == 0
    ensures ColumnEnd(sw - 1, rw, sw) == rw
    ensures forall x :: 0 <= x < sw ==> ColumnStart(x, rw, sw) <= ColumnEnd(x, rw, sw) <= rw
    ensures forall x :: 0 <= x < sw - 1 ==> ColumnEnd(x, rw, sw) == ColumnStart(x + 1, rw, sw)
  {
    LastColumnEnd(rw, sw);
    forall x | 0 <= x < sw
      ensures ColumnStart(x, rw, sw) <= ColumnEnd(x, rw, sw) <= rw
    {
      ColumnOrdered(x, rw, sw);
    }
  }

  /** Every sample of the window falls in some column ... */
  lemma {:induction false} ColumnsCoverFrom(rw: nat, sw: nat, k: nat, x: nat)
    requires sw > 0 && NoWrap(rw, sw)
    requires x < sw && ColumnStart(x, rw, sw) <= k < rw
    ensures exists y :: x <= y < sw && ColumnStart(y, rw, sw) <= k < ColumnEnd(y, rw, sw)
    decreases sw - x
  {
    if ColumnEnd(x, rw, sw) <= k {
      LastColumnEnd(rw, sw);
      assert x != sw - 1;
      ColumnsCoverFrom(rw, sw, k, x + 1);
    }
  }

  /** ... and in only one: the columns partition [0, reading_window). */
  lemma ColumnsCoverOnce(rw: nat, sw: nat, k: nat)
    requires sw > 0 && NoWrap(rw, sw) && k < rw
    ensures exists x :: 0 <= x < sw && ColumnStart(x, rw, sw) <= k < ColumnEnd(x, rw, sw)
    ensures forall x, y ::
      (0 <= x < sw && 0 <= y < sw
       && ColumnStart(x, rw, sw) <= k < ColumnEnd(x, rw, sw)
       && ColumnStart(y, rw, sw) <= k < ColumnEnd(y, rw, sw)) ==> x == y
  {
    ColumnsCoverFrom(rw, sw, k, 0);
    forall x, y | 0 <= x < sw && 0 <= y < sw
      && ColumnStart(x, rw, sw) <= k < ColumnEnd(x, rw, sw)
      && ColumnStart(y, rw, sw) <= k < ColumnEnd(y, rw, sw)
      ensures x == y
    {
      if x < y {
        ColumnEndMono(x, y - 1, rw, sw);
      } else if y < x {
        ColumnEndMono(y, x - 1, rw, sw);
      }
    }
  }

  /** The reading carried into column `x`: the last sample of the
      previous non-empty column, or the first sample of the window. */
  function Carried(readings: seq<bool>, start: nat, rw: nat, sw: nat, x: nat): bool
    requires |readings| == READINGS_SIZE && sw > 0
  {
    var lo := ColumnStart(x, rw, sw);
    if lo > 0 then Rel(readings, start, lo - 1) else Rel(readings, start, 0)
  }

  /** Reference definition of column `x`'s state, without the scan's
      carried state. */
  function ColumnState(readings: seq<bool>, start: nat, rw: nat, sw: nat, x: nat): DrawState
    requires |readings| == READINGS_SIZE && sw > 0
  {
    Classification(readings, start, ColumnStart(x, rw, sw), ColumnEnd(x, rw, sw),
                   Carried(readings, start, rw, sw, x))
  }

  /** Ring index the columns are drawn from after alignment. */
  function DrawStart(pos: nat, zoom: nat, offset: nat): nat
    requires zoom >= 1 && offset <= READINGS_SIZE
  {
    Back(StartIndex(pos, zoom), offset)
  }

  /** Every column of `columns` is in its reference state for a window
      starting at ring index `start`. */
  predicate DrawnFrom(readings: seq<bool>, columns: seq<DrawState>, start: nat, rw: nat, sw: nat)
    requires |readings| == READINGS_SIZE && sw > 0
  {
    forall x :: 0 <= x < |columns| ==> columns[x] == ColumnState(readings, start, rw, sw, x)
  }

  /** The carried reading after column `x` is the one carried into
      column `x + 1`. */
  lemma CarriedStep(readings: seq<bool>, start: nat, rw: nat, sw: nat, x: nat)
    requires |readings| == READINGS_SIZE && sw > 0 && x < sw && NoWrap(rw, sw)
    ensures var lo, hi := ColumnStart(x, rw, sw), ColumnEnd(x, rw, sw);
      Carried(readings, start, rw, sw, x + 1)
        == if hi > lo then Rel(readings, start, hi - 1) else Carried(readings, start, rw, sw, x)
  {
    ColumnOrdered(x, rw, sw);
  }

  /** The column loop of `draw_plot`, from ring index `start`. */
  method DrawColumns(readings: seq<bool>, start: nat, rw: nat, sw: nat) returns (columns: seq<DrawState>)
    requires |readings| == READINGS_SIZE && sw > 0
    ensures |columns| == sw
    ensures NoWrap(rw, sw) ==> DrawnFrom(readings, columns, start, rw, sw)
  {
    var last := readings[start % READINGS_SIZE];
    columns := [];
    var windowStart := 0;
    var x := 0;
    while x < sw
      invariant 0 <= x <= sw && |columns| == x
      invariant windowStart == ColumnStart(x, rw, sw)
      invariant NoWrap(rw, sw) ==> last == Carried(readings, start, rw, sw, x)
      invariant NoWrap(rw, sw) ==>
        forall x' :: 0 <= x' < x ==> columns[x'] == ColumnState(readings, start, rw, sw, x')
    {
      var windowEnd := ((x + 1) * rw) % U32 / sw;
      var state, newLast := ClassifyColumn(readings, start, windowStart, windowEnd, last);
      if NoWrap(rw, sw) {
        CarriedStep(readings, start, rw, sw, x);
      }
      columns := columns + [state];
      last := newLast;
      windowStart := windowEnd;
      x := x + 1;
    }
  }

  /** `(a % R + b) % R == (a + b) % R` for the ring size R. */
  lemma ModAddLeft(a: nat, b: nat)
    ensures (a % READINGS_SIZE + b) % READINGS_SIZE == (a + b) % READINGS_SIZE
  {
    var q := a / READINGS_SIZE;
    assert a == q * READINGS_SIZE + a % READINGS_SIZE;
  }

  /** The window start of `draw_plot` and, with edge alignment, the
      search for an earlier edge. */
  method AlignStart(readings: seq<bool>, pos: nat, zoom: nat, edgeAlign: bool) returns (start: nat, offset: nat)
    requires |readings| == READINGS_SIZE && pos < U32 && 1 <= zoom
    ensures offset < READINGS_SIZE
    ensures start == DrawStart(pos, zoom, offset)
    ensures !edgeAlign ==> offset == 0
    ensures offset == 0 || offset < READINGS_SIZE - ReadingWindow(zoom)
    ensures offset > 0 ==>
      && !readings[DrawStart(pos, zoom, offset)]
      && readings[(DrawStart(pos, zoom, offset) + 1) % READINGS_SIZE]
    ensures edgeAlign ==> forall i ::
      1 <= i < (if offset > 0 then offset else READINGS_SIZE - ReadingWindow(zoom))
      ==> !EdgeAt(readings, StartIndex(pos, zoom), i)
  {
    var startNoModulus := StartNoModulus(pos, zoom);
    start := startNoModulus % READINGS_SIZE;
    offset := 0;
    if edgeAlign {
      var alignWindow := AlignWindow(pos, zoom);
      start, offset := FindAlignment(readings, start, alignWindow);
      if offset > 0 {
        EdgeAtDrawStart(readings, pos, zoom, offset);
      }
    }
  }

  /** An edge found `offset` slots back is low at the aligned start and
      high one slot later. */
  lemma EdgeAtDrawStart(readings: seq<bool>, pos: nat, zoom: nat, offset: nat)
    requires |readings| == READINGS_SIZE && 1 <= zoom && 0 < offset <= READINGS_SIZE
    requires EdgeAt(readings, StartIndex(pos, zoom), offset)
    ensures !readings[DrawStart(pos, zoom, offset)]
    ensures readings[(DrawStart(pos, zoom, offset) + 1) % READINGS_SIZE]
  {
    var s := StartIndex(pos, zoom);
    ModAddLeft(s + (READINGS_SIZE - offset), 1);
    assert (Back(s, offset) + 1) % READINGS_SIZE == Back(s, offset - 1);
  }

  /**
   `draw_plot`: returns the per-column states and the alignment offset.
   `screenWindow` is `min(p2.x, WIDTH) - p1.x`, computed by the caller.
   */
  method DrawPlot(readings: seq<bool>, pos: nat, zoom: nat, screenWindow: int, edgeAlign: bool)
    returns (columns: seq<DrawState>, offset: nat)
    requires |readings| == READINGS_SIZE
    requires pos < U32
    requires 1 <= zoom < 0x1_0000
    requires I32_MIN <= screenWindow <= I32_MAX
    ensures |columns| == if screenWindow > 0 then screenWindow else 0
    ensures !edgeAlign || zoom == 1 ==> offset == 0
    ensures offset == 0 || offset < READINGS_SIZE - ReadingWindow(zoom)
    ensures offset > 0 ==>
      && !readings[DrawStart(pos, zoom, offset)]
      && readings[(DrawStart(pos, zoom, offset) + 1) % READINGS_SIZE]
    ensures edgeAlign ==> forall i ::
      1 <= i < (if offset > 0 then offset else READINGS_SIZE - ReadingWindow(zoom))
      ==> !EdgeAt(readings, StartIndex(pos, zoom), i)
    ensures screenWindow > 0 && NoWrap(ReadingWindow(zoom), screenWindow) ==>
      DrawnFrom(readings, columns, DrawStart(pos, zoom, offset), ReadingWindow(zoom), screenWindow)
  {
    var start;
    start, offset := AlignStart(readings, pos, zoom, edgeAlign);
    if screenWindow > 0 {
      columns := DrawColumns(readings, start, READINGS_SIZE / zoom, screenWindow);
    } else {
      columns := [];
    }
  }

  /** For a position inside the ring the 32-bit sum never wraps. */
  lemma StartIndexInRing(pos: nat, zoom: nat)
    requires pos < READINGS_SIZE && 1 <= zoom
    ensures StartIndex(pos, zoom) == (pos + (READINGS_SIZE - ReadingWindow(zoom))) % READINGS_SIZE
  {
    var d := READINGS_SIZE - ReadingWindow(zoom);
    assert pos + d < U32;
    assert StartNoModulus(pos, zoom) == pos + d;
  }

  /** Channel B is drawn from `(local_pos + READINGS_SIZE - offset) %
      READINGS_SIZE` without alignment: its window starts at exactly the
      ring index channel A was aligned to. */
  lemma SecondChannelShareAlignment(pos: nat, zoom: nat, offset: nat)
    requires pos < READINGS_SIZE && 1 <= zoom && offset <= READINGS_SIZE
    ensures StartIndex((pos + (READINGS_SIZE - offset)) % READINGS_SIZE, zoom) == DrawStart(pos, zoom, offset)
  {
    var posB := (pos + (READINGS_SIZE - offset)) % READINGS_SIZE;
    StartIndexInRing(posB, zoom);
    StartIndexInRing(pos, zoom);
    ShiftsCommute(pos, READINGS_SIZE - ReadingWindow(zoom), READINGS_SIZE - offset);
  }

  /** Two shifts around the ring may be applied in either order. */
  lemma ShiftsCommute(p: nat, d: nat, e: nat)
    ensures ((p + e) % READINGS_SIZE + d) % READINGS_SIZE == ((p + d) % READINGS_SIZE + e) % READINGS_SIZE
  {
    ModAddLeft(p + e, d);
    ModAddLeft(p + d, e);
    assert p + e + d == p + d + e;
  }

  /** One refresh's two plots as the main loop draws them: channel A with
      edge alignment above x4 zoom, channel B without alignment from the
      position A's offset moves back to, so both start at A's aligned
      ring index. */
  method PlotChannels(readingsA: seq<bool>, readingsB: seq<bool>, pos: nat, zoom: nat, screenWindow: int)
    returns (columnsA: seq<DrawState>, columnsB: seq<DrawState>, offset: nat)
    requires |readingsA| == READINGS_SIZE && |readingsB| == READINGS_SIZE
    requires pos < READINGS_SIZE
    requires 1 <= zoom < 0x1_0000
    requires I32_MIN <= screenWindow <= I32_MAX
    ensures |columnsA| == |columnsB| == if screenWindow > 0 then screenWindow else 0
    ensures offset <= READINGS_SIZE
    ensures zoom <= EDGE_ALIGN_ABOVE_ZOOM ==> offset == 0
    ensures screenWindow > 0 && NoWrap(ReadingWindow(zoom), screenWindow) ==>
      && DrawnFrom(readingsA, columnsA, DrawStart(pos, zoom, offset), ReadingWindow(zoom), screenWindow)
      && DrawnFrom(readingsB, columnsB, DrawStart(pos, zoom, offset), ReadingWindow(zoom), screenWindow)
  {
    columnsA, offset := DrawPlot(readingsA, pos, zoom, screenWindow, zoom > EDGE_ALIGN_ABOVE_ZOOM);
    var posB := (pos + (READINGS_SIZE - offset)) % READINGS_SIZE;
    var ignored;
    columnsB, ignored := DrawPlot(readingsB, posB, zoom, screenWindow, false);
    SecondChannelShareAlignment(pos, zoom, offset);
    BackZero(StartIndex(posB, zoom));
    assert DrawStart(posB, zoom, 0) == DrawStart(pos, zoom, offset);
  }

  lemma BackZero(s: nat)
    requires s < READINGS_SIZE
    ensures Back(s, 0) == s
  {
  }
}

=== FILE: regs.dfy ===
/** ST7789 command opcodes and the MADCTL (memory access control) bit flags. */
module Regs {
  import opened Bytes

  // MADCTL bits
  const ROW_ORDER: byte   := 0x80
  const COL_ORDER: byte   := 0x40
  const SWAP_XY: byte     := 0x20  // a.k.a. "MV"
  const SCAN_ORDER: byte  := 0x10
  const RGB: byte         := 0x08
  const HORIZ_ORDER: byte := 0x04

  // Command opcodes
  const SWRESET: byte  := 0x01
  const TEOFF: byte    := 0x34
  const TEON: byte     := 0x35
  const MADCTL: byte   := 0x36
  const COLMOD: byte   := 0x3A
  const GCTRL: byte    := 0xB7
  const VCOMS: byte    := 0xBB
  const LCMCTRL: byte  := 0xC0
  const VDVVRHEN: byte := 0xC2
  const VRHS: byte     := 0xC3
  const VDVS: byte     := 0xC4
  const FRCTRL2: byte  := 0xC6
  const PWCTRL1: byte  := 0xD0
  const PORCTRL: byte  := 0xB2
  const GMCTRP1: byte  := 0xE0
  const GMCTRN1: byte  := 0xE1
  const INVOFF: byte   := 0x20
  const SLPOUT: byte   := 0x11
  const DISPON: byte   := 0x29
  const GAMSET: byte   := 0x26
  const DISPOFF: byte  := 0x28
  const RAMWR: byte    := 0x2C
  const INVON: byte    := 0x21
  const CASET: byte    := 0x2A
  const RASET: byte    := 0x2B
  const PWMFRSEL: byte := 0xCC

  /** The unnamed register the 320x240 initialisation writes (0xD6). */
  const UNNAMED_D6: byte := 0xD6
}

=== FILE: sampler.dfy ===
/**
 The encoder demo's sample buffers: a repeating timer stores each encoder
 reading in a ring of `READINGS_SIZE` slots, or, while the screen is being
 drawn, in a scratch buffer of `SCRATCH_SIZE` slots whose contents the
 main loop copies back into the ring afterwards. Only the sequential index
 and content arithmetic is modelled; the timer interrupt is a function
 applied between main-loop steps.
 */
module Sampler {

  const TIME_BETWEEN_SAMPLES_US: nat := 100
  const WINDOW_DURATION_US: nat := 1000000
  /** `WINDOW_DURATION_US / TIME_BETWEEN_SAMPLES_US`, written out (see
      `BufferSizes`) so that the solver sees a literal modulus. */
  const READINGS_SIZE: nat := 10000
  /** `READINGS_SIZE / 10`. */
  const SCRATCH_SIZE: nat := 1000

  /** The buffer sizes are the ones the demo derives from its timing. */
  lemma BufferSizes()
    ensures READINGS_SIZE == WINDOW_DURATION_US / TIME_BETWEEN_SAMPLES_US
    ensures SCRATCH_SIZE == READINGS_SIZE / 10
  {
  }

  /** One reading of the encoder's A and B channels. */
  datatype Sample = Sample(a: bool, b: bool)

  datatype Sampler = Sampler(
    readings: seq<Sample>,   // enc_a_readings / enc_b_readings
    scratch: seq<Sample>,    // enc_a_scratch / enc_b_scratch
    nextReading: nat,        // next_reading_index
    nextScratch: nat,        // next_scratch_index
    drawing: bool)           // drawing_to_screen

  /** Buffer sizes and the index bounds every array access relies on. */
  predicate Valid(s: Sampler)
  {
    && |s.readings| == READINGS_SIZE
    && |s.scratch| == SCRATCH_SIZE
    && s.nextReading < READINGS_SIZE
    && s.nextScratch <= SCRATCH_SIZE
  }

  /** `setup`: every ring slot holds the initial encoder state. */
  function Setup(initial: Sample): (s: Sampler)
    ensures Valid(s) && !s.drawing && s.nextReading == 0 && s.nextScratch == 0
    ensures forall k :: 0 <= k < |s.readings| ==> s.readings[k] == initial
  {
    Sampler(seq(READINGS_SIZE, _ => initial), seq(SCRATCH_SIZE, _ => Sample(false, false)), 0, 0, false)
  }

  /** `next_reading_index++` followed by the reset to 0 at `READINGS_SIZE`. */
  function Advance(i: nat): (r: nat)
    requires i < READINGS_SIZE
    ensures r < READINGS_SIZE
  {
    if i + 1 >= READINGS_SIZE then 0 else i + 1
  }

  /** The index reset is arithmetic modulo the ring size. */
  lemma AdvanceWraps(i: nat)
    requires i < READINGS_SIZE
    ensures Advance(i) == (i + 1) % READINGS_SIZE
  {
  }

  /** `repeating_timer_callback`: store one sample in the scratch buffer
      while drawing and there is room, otherwise in the ring. */
  function TimerCallback(s: Sampler, sample: Sample): (t: Sampler)
    requires Valid(s)
    ensures Valid(t)
    ensures t.drawing == s.drawing
  {
    if s.drawing && s.nextScratch < SCRATCH_SIZE then
      s.(scratch := s.scratch[s.nextScratch := sample], nextScratch := s.nextScratch + 1)
    else
      s.(readings := s.readings[s.nextReading := sample], nextReading := Advance(s.nextReading))
  }

  /** Where one sample goes: while drawing and with room, into the next
      scratch slot with the ring untouched; otherwise into the next ring
      slot, which wraps to 0 after the last, with the scratch untouched. */
  lemma TimerCallbackStores(s: Sampler, sample: Sample)
    requires Valid(s)
    ensures var t := TimerCallback(s, sample);
      s.drawing && s.nextScratch < SCRATCH_SIZE ==>
        && t.readings == s.readings && t.nextReading == s.nextReading
        && t.nextScratch == s.nextScratch + 1
        && t.scratch[..s.nextScratch] == s.scratch[..s.nextScratch] && t.scratch[s.nextScratch] == sample
        && t.scratch[s.nextScratch + 1..] == s.scratch[s.nextScratch + 1..]
    ensures var t := TimerCallback(s, sample);
      !(s.drawing && s.nextScratch < SCRATCH_SIZE) ==>
        && t.scratch == s.scratch && t.nextScratch == s.nextScratch
        && t.readings[s.nextReading] == sample
        && (forall k :: 0 <= k < READINGS_SIZE && k != s.nextReading ==> t.readings[k] == s.readings[k])
        && t.nextReading == (s.nextReading + 1) % READINGS_SIZE
  {
  }

  /** Timer callbacks for the given samples, in order. */
  function Ticks(s: Sampler, samples: seq<Sample>): (t: Sampler)
    requires Valid(s)
    ensures Valid(t)
    decreases |samples|
  {
    if samples == [] then s else Ticks(TimerCallback(s, samples[0]), samples[1..])
  }

  /** The ring after writing `ss` one slot at a time from index `i`. */
  function WriteRun(ring: seq<Sample>, i: nat, ss: seq<Sample>): (r: seq<Sample>)
    requires |ring| == READINGS_SIZE && i < READINGS_SIZE
    ensures |r| == READINGS_SIZE
    decreases |ss|
  {
    if ss == [] then ring else WriteRun(ring[i := ss[0]], Advance(i), ss[1..])
  }

  /** Distance from slot `i` forward to slot `k` around the ring. */
  function Ahead(i: nat, k: nat): nat
  {
    (k + READINGS_SIZE - i) % READINGS_SIZE
  }

  /** A run of at most `READINGS_SIZE` samples lands, in order, in the
      consecutive slots from `i` (wrapping at the end of the ring) and
      leaves every other slot unchanged. */
  lemma {:induction false} WriteRunPlaces(ring: seq<Sample>, i: nat, ss: seq<Sample>)
    requires |ring| == READINGS_SIZE && i < READINGS_SIZE && |ss| <= READINGS_SIZE
    ensures forall j :: 0 <= j < |ss| ==> WriteRun(ring, i, ss)[(i + j) % READINGS_SIZE] == ss[j]
    ensures forall k :: 0 <= k < READINGS_SIZE && Ahead(i, k) >= |ss| ==> WriteRun(ring, i, ss)[k] == ring[k]
    decreases |ss|
  {
    WriteRunKeeps(ring, i, ss);
    if ss != [] {
      var ring' := ring[i := ss[0]];
      var i' := Advance(i);
      WriteRunPlaces(ring', i', ss[1..]);
      WriteRunKeeps(ring', i', ss[1..]);
      var r := WriteRun(ring, i, ss);
      assert r == WriteRun(ring', i', ss[1..]);
      forall j | 0 <= j < |ss|
        ensures r[(i + j) % READINGS_SIZE] == ss[j]
      {
        if j == 0 {
          AheadOfSelf(i);
          assert r[i] == ring'[i];
        } else {
          AdvanceShift(i, j);
        }
      }
    }
  }

  /** Slots the run does not reach keep their contents. */
  lemma {:induction false} WriteRunKeeps(ring: seq<Sample>, i: nat, ss: seq<Sample>)
    requires |ring| == READINGS_SIZE && i < READINGS_SIZE
    ensures forall k :: 0 <= k < READINGS_SIZE && Ahead(i, k) >= |ss| ==> WriteRun(ring, i, ss)[k] == ring[k]
    decreases |ss|
  {
    if ss != [] {
      var ring' := ring[i := ss[0]];
      var i' := Advance(i);
      WriteRunKeeps(ring', i', ss[1..]);
      forall k | 0 <= k < READINGS_SIZE && Ahead(i, k) >= |ss|
        ensures WriteRun(ring, i, ss)[k] == ring[k]
      {
        AheadAdvance(i, k);
      }
    }
  }

  /** The slot just behind `Advance(i)` is `i`, the furthest ahead. */
  lemma AheadOfSelf(i: nat)
    requires i < READINGS_SIZE
    ensures Ahead(Advance(i), i) == READINGS_SIZE - 1
  {
  }

  lemma AheadAdvance(i: nat, k: nat)
    requires i < READINGS_SIZE && k < READINGS_SIZE && k != i
    ensures Ahead(Advance(i), k) == Ahead(i, k) - 1
  {
  }

  lemma AdvanceShift(i: nat, j: nat)
    requires i < READINGS_SIZE && j >= 1
    ensures (Advance(i) + (j - 1)) % READINGS_SIZE == (i + j) % READINGS_SIZE
  {
  }

  lemma {:induction false} WriteRunSnoc(ring: seq<Sample>, i: nat, ss: seq<Sample>, x: Sample)
    requires |ring| == READINGS_SIZE && i < READINGS_SIZE
    ensures WriteRun(ring, i, ss + [x]) == WriteRun(ring, i, ss)[(i + |ss|) % READINGS_SIZE := x]
    decreases |ss|
  {
    if ss == [] {
      assert WriteRun(ring[i := x], Advance(i), []) == ring[i := x];
      assert ([] + [x])[1..] == [];
    } else {
      assert (ss + [x])[0] == ss[0];
      assert (ss + [x])[1..] == ss[1..] + [x];
      WriteRunSnoc(ring[i := ss[0]], Advance(i), ss[1..], x);
      assert (Advance(i) + |ss[1..]|) % READINGS_SIZE == (i + |ss|) % READINGS_SIZE;
    }
  }

  /** The main loop's copy-back after drawing: every scratch sample is
      appended to the ring in order, then drawing ends and the scratch
      buffer is emptied. */
  method CopyBack(s: Sampler) returns (t: Sampler)
    requires Valid(s)
    ensures Valid(t)
    ensures !t.drawing && t.nextScratch == 0 && t.scratch == s.scratch
    ensures t.nextReading == (s.nextReading + s.nextScratch) % READINGS_SIZE
    ensures t.readings == WriteRun(s.readings, s.nextReading, s.scratch[..s.nextScratch])
    ensures forall j :: 0 <= j < s.nextScratch ==>
      t.readings[(s.nextReading + j) % READINGS_SIZE] == s.scratch[j]
    ensures forall k :: 0 <= k < READINGS_SIZE && Ahead(s.nextReading, k) >= s.nextScratch ==>
      t.readings[k] == s.readings[k]
  {
    var pending := s.scratch[..s.nextScratch];
    var readings, next := AppendRun(s.readings, s.nextReading, pending);
    WriteRunPlaces(s.readings, s.nextReading, pending);
    t := s.(readings := readings, nextReading := next, nextScratch := 0, drawing := false);
  }

  /** The copy loop itself: writes `ss` into the ring slot by slot from
      index `i`, advancing and wrapping the index after each write. */
  method AppendRun(ring: seq<Sample>, i: nat, ss: seq<Sample>) returns (r: seq<Sample>, next: nat)
    requires |ring| == READINGS_SIZE && i < READINGS_SIZE
    ensures r == WriteRun(ring, i, ss)
    ensures next == (i + |ss|) % READINGS_SIZE
  {
    r := ring;
    next := i;
    var n := 0;
    while n < |ss|
      invariant 0 <= n <= |ss|
      invariant |r| == READINGS_SIZE
      invariant next == (i + n) % READINGS_SIZE
      invariant r == WriteRun(ring, i, ss[..n])
    {
      WriteRunSnoc(ring, i, ss[..n], ss[n]);
      assert ss[..n + 1] == ss[..n] + [ss[n]];
      r := r[next := ss[n]];
      next := next + 1;
      if next >= READINGS_SIZE {
        next := 0;
      }
      n := n + 1;
    }
    assert ss[..n] == ss;
  }

  /** Closed form of `CopyBack`, for reasoning about whole frames. */
  function FinishDrawing(s: Sampler): (t: Sampler)
    requires Valid(s)
    ensures Valid(t)
  {
    s.(readings := WriteRun(s.readings, s.nextReading, s.scratch[..s.nextScratch]),
       nextReading := (s.nextReading + s.nextScratch) % READINGS_SIZE,
       nextScratch := 0, drawing := false)
  }

  lemma {:induction false} DirectTicks(s: Sampler, ss: seq<Sample>)
    requires Valid(s) && !s.drawing
    ensures Ticks(s, ss).readings == WriteRun(s.readings, s.nextReading, ss)
    ensures Ticks(s, ss).nextReading == (s.nextReading + |ss|) % READINGS_SIZE
    ensures Ticks(s, ss).scratch == s.scratch && Ticks(s, ss).nextScratch == s.nextScratch
    ensures !Ticks(s, ss).drawing
    decreases |ss|
  {
    if ss != [] {
      DirectTicks(TimerCallback(s, ss[0]), ss[1..]);
    }
  }

  lemma {:induction false} DeferredTicks(s: Sampler, ss: seq<Sample>)
    requires Valid(s) && s.drawing && s.nextScratch + |ss| <= SCRATCH_SIZE
    ensures Ticks(s, ss).readings == s.readings
    ensures Ticks(s, ss).nextReading == s.nextReading
    ensures Ticks(s, ss).nextScratch == s.nextScratch + |ss|
    ensures Ticks(s, ss).scratch[..Ticks(s, ss).nextScratch] == s.scratch[..s.nextScratch] + ss
    ensures Ticks(s, ss).drawing
    decreases |ss|
  {
    if ss == [] {
      assert s.scratch[..s.nextScratch] + ss == s.scratch[..s.nextScratch];
    } else {
      var t := TimerCallback(s, ss[0]);
      DeferredTicks(t, ss[1..]);
      assert t.scratch[..t.nextScratch] == s.scratch[..s.nextScratch] + [ss[0]];
      assert s.scratch[..s.nextScratch] + [ss[0]] + ss[1..] == s.scratch[..s.nextScratch] + ss;
    }
  }

  /** Samples taken while the screen is drawn (no more than the scratch
      buffer holds) end up in the ring exactly as if they had been written
      there directly: same slots, same order, same next index. */
  lemma ScratchDefersWrites(s: Sampler, ss: seq<Sample>)
    requires Valid(s) && s.drawing && s.nextScratch == 0 && |ss| <= SCRATCH_SIZE
    ensures FinishDrawing(Ticks(s, ss)).readings == Ticks(s.(drawing := false), ss).readings
    ensures FinishDrawing(Ticks(s, ss)).nextReading == Ticks(s.(drawing := false), ss).nextReading
  {
    DirectFromDrawing(s, ss);
    EmptyScratchTicks(s, ss);
  }

  lemma DirectFromDrawing(s: Sampler, ss: seq<Sample>)
    requires Valid(s)
    ensures Ticks(s.(drawing := false), ss).readings == WriteRun(s.readings, s.nextReading, ss)
    ensures Ticks(s.(drawing := false), ss).nextReading == (s.nextReading + |ss|) % READINGS_SIZE
  {
    var direct := s.(drawing := false);
    assert Valid(direct) && direct.readings == s.readings && direct.nextReading == s.nextReading;
    DirectTicks(direct, ss);
  }

  lemma EmptyScratchTicks(s: Sampler, ss: seq<Sample>)
    requires Valid(s) && s.drawing && s.nextScratch == 0 && |ss| <= SCRATCH_SIZE
    ensures FinishDrawing(Ticks(s, ss)).readings == WriteRun(s.readings, s.nextReading, ss)
    ensures FinishDrawing(Ticks(s, ss)).nextReading == (s.nextReading + |ss|) % READINGS_SIZE
  {
    DeferredTicks(s, ss);
    FinishDrawingFields(s, ss, Ticks(s, ss));
  }

  /** `FinishDrawing` of a state `t` whose pending scratch samples are
      exactly `ss`, queued from the empty scratch buffer of `s`. */
  lemma FinishDrawingFields(s: Sampler, ss: seq<Sample>, t: Sampler)
    requires Valid(s) && s.nextScratch == 0 && Valid(t)
    requires t.readings == s.readings && t.nextReading == s.nextReading
    requires t.nextScratch == s.nextScratch + |ss|
    requires t.scratch[..t.nextScratch] == s.scratch[..s.nextScratch] + ss
    ensures FinishDrawing(t).readings == WriteRun(s.readings, s.nextReading, ss)
    ensures FinishDrawing(t).nextReading == (s.nextReading + |ss|) % READINGS_SIZE
  {
    EmptyPrefix(s.scratch, ss);
    var pending := t.scratch[..t.nextScratch];
    assert pending == ss;
    assert FinishDrawing(t).readings == WriteRun(t.readings, t.nextReading, pending);
  }

  lemma EmptyPrefix(a: seq<Sample>, ss: seq<Sample>)
    ensures a[..0] + ss == ss
  {
  }
}

=== FILE: transport.dfy ===
/**
 Command framing on the SPI bus (`ST7789::command`).

 A command is an opcode and an optional payload; sending it is a
 transaction of line and bus events: chip select low, data/command low,
 the opcode byte, then, only when a payload pointer is given, data/command
 high and the payload bytes verbatim, and finally chip select high.
 */
module Transport {
  import opened Wrappers
  import opened Bytes

  /** `data == None` is the source's null payload pointer. */
  datatype Command = Command(opcode: byte, data: Option<seq<byte>>)

  /** Observable effects of one transaction: GPIO writes and SPI writes. */
  datatype Event = CsLow | CsHigh | DcLow | DcHigh | Write(bytes: seq<byte>)

  /** The events `command(opcode, len, data)` produces. */
  function Frame(c: Command): (t: seq<Event>)
    ensures |t| == if c.data.Some? then 6 else 4
    ensures t[0] == CsLow && t[|t| - 1] == CsHigh
  {
    [CsLow, DcLow, Write([c.opcode])]
      + (if c.data.Some? then [DcHigh, Write(c.data.value)] else [])
      + [CsHigh]
  }

  /** The events of a sequence of commands issued back to back. */
  function FrameAll(cs: seq<Command>): (t: seq<Event>)
  {
    if cs == [] then [] else Frame(cs[0]) + FrameAll(cs[1..])
  }

  /** Reads a trace of bus events back into the commands it carries, or
      None if the trace is not a succession of well-formed transactions. */
  function Deframe(t: seq<Event>): (r: Option<seq<Command>>)
    decreases |t|
  {
    if t == [] then Some([])
    else if |t| >= 4 && t[0] == CsLow && t[1] == DcLow && t[2].Write? && |t[2].bytes| == 1 then
      var op := t[2].bytes[0];
      if t[3] == CsHigh then
        match Deframe(t[4..])
        case Some(rest) => Some([Command(op, None)] + rest)
        case None => None
      else if |t| >= 6 && t[3] == DcHigh && t[4].Write? && t[5] == CsHigh then
        match Deframe(t[6..])
        case Some(rest) => Some([Command(op, Some(t[4].bytes))] + rest)
        case None => None
      else None
    else None
  }

  /** The receiver recovers every command, opcode and payload, exactly. */
  lemma {:induction false} DeframeFrameAll(cs: seq<Command>)
    ensures Deframe(FrameAll(cs)) == Some(cs)
  {
    if cs != [] {
      DeframeFrameAll(cs[1..]);
      var t := FrameAll(cs);
      var f := Frame(cs[0]);
      assert t == f + FrameAll(cs[1..]);
      assert t[|f|..] == FrameAll(cs[1..]);
      assert [cs[0]] + cs[1..] == cs;
    }
  }

  /** Conversely, any trace the receiver accepts is exactly the framing of
      what it read: framing is a bijection onto well-formed traces. */
  lemma {:induction false} DeframeSound(t: seq<Event>, cs: seq<Command>)
    requires Deframe(t) == Some(cs)
    ensures FrameAll(cs) == t
    decreases |t|
  {
    if t != [] {
      var op := t[2].bytes[0];
      var c, n;
      if t[3] == CsHigh {
        c, n := Command(op, None), 4;
      } else {
        c, n := Command(op, Some(t[4].bytes)), 6;
      }
      var rest := Deframe(t[n..]).value;
      assert cs == [c] + rest;
      DeframeSound(t[n..], rest);
      FrameOfHead(t, c, n);
      FrameAllCons(c, rest);
    }
  }

  /** The first `n` events of an accepted trace are the framing of the
      command read from them. */
  lemma FrameOfHead(t: seq<Event>, c: Command, n: nat)
    requires |t| >= n == |Frame(c)|
    requires t[0] == CsLow && t[1] == DcLow && t[2] == Write([c.opcode]) && t[n - 1] == CsHigh
    requires c.data.Some? ==> t[3] == DcHigh && t[4] == Write(c.data.value)
    ensures t == Frame(c) + t[n..]
  {
  }

  lemma FrameAllCons(c: Command, rest: seq<Command>)
    ensures FrameAll([c] + rest) == Frame(c) + FrameAll(rest)
  {
    assert ([c] + rest)[1..] == rest;
  }

  /** Chip-select discipline starting with the line selected or not: select
      only while deselected, deselect only while selected, drive D/C and
      write bytes only while selected, and end deselected. */
  predicate Bracketed(t: seq<Event>, selected: bool)
    decreases |t|
  {
    if t == [] then !selected
    else match t[0]
      case CsLow => !selected && Bracketed(t[1..], true)
      case CsHigh => selected && Bracketed(t[1..], false)
      case _ => selected && Bracketed(t[1..], true)
  }

  lemma {:induction false} BracketedAppend(a: seq<Event>, b: seq<Event>, selected: bool)
    requires Bracketed(a, selected) && Bracketed(b, false)
    ensures Bracketed(a + b, selected)
    decreases |a|
  {
    if a != [] {
      assert (a + b)[0] == a[0];
      assert (a + b)[1..] == a[1..] + b;
      var next := match a[0] case CsLow => true case CsHigh => false case _ => true;
      BracketedAppend(a[1..], b, next);
    } else {
      assert a + b == b;
    }
  }

  lemma FrameBracketed(c: Command)
    ensures Bracketed(Frame(c), false)
  {
    var f := Frame(c);
    var n := |f|;
    assert f[n - 1..] == [CsHigh];
    assert Bracketed(f[n - 1..], true);
    assert f[n - 2..] == [f[n - 2]] + f[n - 1..];
    assert Bracketed(f[n - 2..], true);
    if c.data.Some? {
      assert f[3..] == [DcHigh] + f[4..];
      assert Bracketed(f[3..], true);
    }
    assert f[2..] == [f[2]] + f[3..];
    assert f[1..] == [DcLow] + f[2..];
  }

  /** Chip select is low for the whole of every transaction and high
      between them: no partial and no interleaved transactions. */
  lemma {:induction false} FrameAllBracketed(cs: seq<Command>)
    ensures Bracketed(FrameAll(cs), false)
  {
    if cs != [] {
      FrameAllBracketed(cs[1..]);
      FrameBracketed(cs[0]);
      BracketedAppend(Frame(cs[0]), FrameAll(cs[1..]), false);
    }
  }

  /** All bytes a trace puts on the bus, in order. */
  function BusBytes(t: seq<Event>): seq<byte>
  {
    if t == [] then []
    else EventBytes(t[0]) + BusBytes(t[1..])
  }

  /** The bytes a single event puts on the bus. */
  function EventBytes(e: Event): seq<byte>
  {
    if e.Write? then e.bytes else []
  }

  lemma BusBytesCons(a: seq<Event>)
    requires a != []
    ensures BusBytes(a) == EventBytes(a[0]) + BusBytes(a[1..])
  {
  }

  lemma {:induction false} BusBytesAppend(a: seq<Event>, b: seq<Event>)
    ensures BusBytes(a + b) == BusBytes(a) + BusBytes(b)
  {
    if a == [] {
      assert a + b == b;
    } else {
      var ab := a + b;
      assert ab[1..] == a[1..] + b;
      BusBytesAppend(a[1..], b);
      calc {
        BusBytes(ab);
        { BusBytesCons(ab); }
        EventBytes(ab[0]) + BusBytes(ab[1..]);
        EventBytes(a[0]) + (BusBytes(a[1..]) + BusBytes(b));
        { BusBytesCons(a); }
        BusBytes(a) + BusBytes(b);
      }
    }
  }

  /** A transaction puts the opcode and then the payload on the bus
      unaltered: no byte-order change and no length change. */
  lemma FrameBusBytes(c: Command)
    ensures BusBytes(Frame(c)) == [c.opcode] + (if c.data.Some? then c.data.value else [])
  {
    var head: seq<Event> := [CsLow, DcLow, Write([c.opcode])];
    var mid: seq<Event> := if c.data.Some? then [DcHigh, Write(c.data.value)] else [];
    BusBytesAppend(head, mid);
    BusBytesAppend(head + mid, [CsHigh]);
    assert BusBytes(head[2..]) == [c.opcode] by {
      assert head[2..][1..] == [];
    }
    assert BusBytes(head[1..]) == [c.opcode] by {
      assert head[1..][1..] == head[2..];
    }
    assert BusBytes(head) == [c.opcode] by {
      BusBytesCons(head);
    }
    if c.data.Some? {
      assert BusBytes(mid) == c.data.value by {
        assert mid[1..][1..] == [];
      }
    }
    assert BusBytes([CsHigh]) == [] by {
      assert [CsHigh][1..] == [];
    }
    assert Frame(c) == head + mid + [CsHigh];
  }
}

=== FILE: wrappers.dfy ===
/** The optional value used for absent command payloads and failed parses. */
module Wrappers {

  datatype Option<+T> = None | Some(value: T)
}

=== FILE: zoom.dfy ===
/**
 The zoom control of the encoder demo's main loop: button A zooms out
 (halves the zoom, floor 1), button X zooms in (doubles it, cap 512), and
 each button acts once per press thanks to a latch cleared on release.
 */
module Zoom {

  /** `uint16_t`. */
  type u16 = x: int | 0 <= x < 0x1_0000

  const MIN_ZOOM: u16 := 1
  const MAX_ZOOM: u16 := 512

  datatype ZoomState = ZoomState(zoom: u16, latchA: bool, latchX: bool)

  /** The demo starts at x1 with both latches clear. */
  const Initial: ZoomState := ZoomState(1, false, false)

  predicate InRange(z: int)
  {
    MIN_ZOOM <= z <= MAX_ZOOM
  }

  predicate IsPowerOfTwo(z: nat)
    decreases z
  {
    z == 1 || (z >= 2 && z % 2 == 0 && IsPowerOfTwo(z / 2))
  }

  /** `std::max(zoom / 2, 1)`. */
  function ZoomOut(z: u16): (r: u16)
    ensures InRange(z) ==> InRange(r)
    ensures r >= 1 && 2 * r <= z + 2
    ensures z >= 2 ==> r < z
  {
    if z / 2 > 1 then z / 2 else 1
  }

  /** `std::min(zoom * 2, 512)`; the `int` product never needs truncating
      back to 16 bits. */
  function ZoomIn(z: u16): (r: u16)
    ensures r <= MAX_ZOOM
    ensures 1 <= z ==> 1 <= r
    ensures 1 <= z < MAX_ZOOM ==> z < r
  {
    if z * 2 < 512 then z * 2 else 512
  }

  /** Button A handling for one refresh: the latch follows the button,
      and the zoom changes only on a press edge, where it goes down. */
  function ButtonA(s: ZoomState, pressed: bool): (t: ZoomState)
    ensures t.latchA == pressed && t.latchX == s.latchX
    ensures t.zoom != s.zoom ==> pressed && !s.latchA
    ensures pressed && !s.latchA && s.zoom >= 2 ==> t.zoom < s.zoom
  {
    if pressed then
      if !s.latchA then s.(latchA := true, zoom := ZoomOut(s.zoom)) else s
    else s.(latchA := false)
  }

  /** Button X handling for one refresh: the latch follows the button,
      and the zoom changes only on a press edge, where it goes up. */
  function ButtonX(s: ZoomState, pressed: bool): (t: ZoomState)
    ensures t.latchX == pressed && t.latchA == s.latchA
    ensures t.zoom != s.zoom ==> pressed && !s.latchX
    ensures pressed && !s.latchX && 1 <= s.zoom < MAX_ZOOM ==> t.zoom > s.zoom
  {
    if pressed then
      if !s.latchX then s.(latchX := true, zoom := ZoomIn(s.zoom)) else s
    else s.(latchX := false)
  }

  /** One refresh of the main loop: A is handled before X. Both latches
      follow their buttons, the zoom changes only when a button goes down,
      and it stays in range. */
  function Tick(s: ZoomState, pressedA: bool, pressedX: bool): (t: ZoomState)
    ensures t.latchA == pressedA && t.latchX == pressedX
    ensures t.zoom != s.zoom ==> (pressedA && !s.latchA) || (pressedX && !s.latchX)
    ensures InRange(s.zoom) ==> InRange(t.zoom)
  {
    ButtonX(ButtonA(s, pressedA), pressedX)
  }

  /** Refreshes with the given button readings, in order. */
  function Run(s: ZoomState, presses: seq<(bool, bool)>): ZoomState
    decreases |presses|
  {
    if presses == [] then s else Run(Tick(s, presses[0].0, presses[0].1), presses[1..])
  }

  /** The button readings of the refresh before refresh `i`: the latches
      of `s` stand for the readings before the first one. */
  function Previous(s: ZoomState, presses: seq<(bool, bool)>, i: nat): (bool, bool)
    requires i < |presses|
  {
    if i == 0 then (s.latchA, s.latchX) else presses[i - 1]
  }

  /** No button goes down anywhere in the run: every button that is down
      at a refresh was already down at the one before. */
  predicate NoEdges(s: ZoomState, presses: seq<(bool, bool)>)
  {
    forall i :: 0 <= i < |presses| ==>
      && (presses[i].0 ==> Previous(s, presses, i).0)
      && (presses[i].1 ==> Previous(s, presses, i).1)
  }

  /** Zooming is edge-triggered: a run of refreshes in which no button
      goes down leaves the zoom where it was, however long the buttons are
      held. */
  lemma {:induction false} NoEdgeNoZoom(s: ZoomState, presses: seq<(bool, bool)>)
    requires NoEdges(s, presses)
    ensures Run(s, presses).zoom == s.zoom
    decreases |presses|
  {
    if presses != [] {
      assert Previous(s, presses, 0) == (s.latchA, s.latchX);
      var t := Tick(s, presses[0].0, presses[0].1);
      var rest := presses[1..];
      forall i | 0 <= i < |rest|
        ensures && (rest[i].0 ==> Previous(t, rest, i).0)
                && (rest[i].1 ==> Previous(t, rest, i).1)
      {
        assert rest[i] == presses[i + 1];
        assert Previous(t, rest, i) == Previous(s, presses, i + 1);
      }
      NoEdgeNoZoom(t, rest);
    }
  }

  lemma PowerOfTwoLimit()
    ensures IsPowerOfTwo(MAX_ZOOM / 2) && IsPowerOfTwo(MAX_ZOOM)
  {
    assert IsPowerOfTwo(1);
    assert IsPowerOfTwo(2);
    assert IsPowerOfTwo(4);
    assert IsPowerOfTwo(8);
    assert IsPowerOfTwo(16);
    assert IsPowerOfTwo(32);
    assert IsPowerOfTwo(64);
    assert IsPowerOfTwo(128);
    assert IsPowerOfTwo(256);
  }

  /** The zoom stays a power of two within [1, 512] under any button
      input: x1, x2, x4, ... x512. */
  lemma TickKeepsZoomLevel(s: ZoomState, a: bool, x: bool)
    requires InRange(s.zoom) && IsPowerOfTwo(s.zoom)
    ensures InRange(Tick(s, a, x).zoom) && IsPowerOfTwo(Tick(s, a, x).zoom)
  {
    var z1 := ButtonA(s, a).zoom;
    assert IsPowerOfTwo(z1) by {
      if a && !s.latchA && s.zoom >= 2 {
        assert s.zoom / 2 >= 1;
      }
    }
    if x && !ButtonA(s, a).latchX {
      if z1 * 2 >= 512 {
        PowerOfTwoLimit();
      } else {
        assert (z1 * 2) / 2 == z1;
      }
    }
  }

  lemma {:induction false} RunKeepsZoomLevel(s: ZoomState, presses: seq<(bool, bool)>)
    requires InRange(s.zoom) && IsPowerOfTwo(s.zoom)
    ensures InRange(Run(s, presses).zoom) && IsPowerOfTwo(Run(s, presses).zoom)
    decreases |presses|
  {
    if presses != [] {
      TickKeepsZoomLevel(s, presses[0].0, presses[0].1);
      RunKeepsZoomLevel(Tick(s, presses[0].0, presses[0].1), presses[1..]);
    }
  }

  /** Between consecutive powers of two there is no other. */
  lemma {:induction false} PowerOfTwoGap(z: nat, m: nat)
    requires IsPowerOfTwo(z) && IsPowerOfTwo(m) && z < 2 * m
    ensures z <= m
    decreases z
  {
    if z != 1 && m != 1 {
      PowerOfTwoGap(z / 2, m / 2);
    }
  }

  /** Zooming in undoes zooming out, and the reverse, away from the limits. */
  lemma ZoomInOutInverse(z: u16)
    requires InRange(z) && IsPowerOfTwo(z)
    ensures z > MIN_ZOOM ==> ZoomIn(ZoomOut(z)) == z
    ensures z < MAX_ZOOM ==> ZoomOut(ZoomIn(z)) == z
  {
    if z > MIN_ZOOM {
      ZoomOutThenIn(z);
    }
    if z < MAX_ZOOM {
      ZoomInThenOut(z);
    }
  }

  lemma ZoomOutThenIn(z: u16)
    requires InRange(z) && IsPowerOfTwo(z) && z > MIN_ZOOM
    ensures ZoomIn(ZoomOut(z)) == z
  {
    assert z % 2 == 0;
    assert ZoomOut(z) == z / 2;
    assert (z / 2) * 2 == z;
  }

  lemma ZoomInThenOut(z: u16)
    requires InRange(z) && IsPowerOfTwo(z) && z < MAX_ZOOM
    ensures ZoomOut(ZoomIn(z)) == z
  {
    BelowMaxIsAtMostHalf(z);
    assert ZoomIn(z) == 2 * z;
    assert (2 * z) / 2 == z;
  }

  lemma BelowMaxIsAtMostHalf(z: nat)
    requires IsPowerOfTwo(z) && z < MAX_ZOOM
    ensures 2 * z <= MAX_ZOOM
  {
    PowerOfTwoLimit();
    PowerOfTwoGap(z, 256);
  }

  /** Holding A (with X up) zooms out at most once, however many
      refreshes it is held for: only the first refresh acts, and only if
      the latch was clear. */
  lemma {:induction false} HeldAZoomsOutOnce(s: ZoomState, presses: seq<(bool, bool)>)
    requires |presses| >= 1
    requires forall i :: 0 <= i < |presses| ==> presses[i] == (true, false)
    ensures Run(s, presses).zoom == if s.latchA then s.zoom else ZoomOut(s.zoom)
    ensures Run(s, presses).latchA
    decreases |presses|
  {
    var t := Tick(s, true, false);
    if |presses| > 1 {
      HeldAZoomsOutOnce(t, presses[1..]);
    }
  }

  /** Holding X (with A up) zooms in at most once. */
  lemma {:induction false} HeldXZoomsInOnce(s: ZoomState, presses: seq<(bool, bool)>)
    requires |presses| >= 1
    requires forall i :: 0 <= i < |presses| ==> presses[i] == (false, true)
    ensures Run(s, presses).zoom == if s.latchX then s.zoom else ZoomIn(s.zoom)
    ensures Run(s, presses).latchX
    decreases |presses|
  {
    var t := Tick(s, false, true);
    if |presses| > 1 {
      HeldXZoomsInOnce(t, presses[1..]);
    }
  }

  /** Holding A keeps its latch set after every refresh, whatever X does,
      so A acts at most once: on every refresh after the first, the A
      handling leaves the state as it is. */
  lemma {:induction false} HeldAActsAtMostOnce(s: ZoomState, presses: seq<(bool, bool)>)
    requires forall i :: 0 <= i < |presses| ==> presses[i].0
    ensures forall i :: 1 <= i <= |presses| ==> Run(s, presses[..i]).latchA
    ensures forall i :: 1 <= i < |presses| ==>
      ButtonA(Run(s, presses[..i]), presses[i].0) == Run(s, presses[..i])
    decreases |presses|
  {
    if presses != [] {
      var t := Tick(s, presses[0].0, presses[0].1);
      HeldAActsAtMostOnce(t, presses[1..]);
      forall i | 1 <= i <= |presses|
        ensures Run(s, presses[..i]).latchA
      {
        assert presses[..i][1..] == presses[1..][..i - 1];
        assert Run(s, presses[..i]) == Run(t, presses[1..][..i - 1]);
      }
    }
  }

  /** Holding X keeps its latch set after every refresh, whatever A does,
      so X acts at most once: on every refresh after the first, the X
      handling leaves the state after A's handling as it is. */
  lemma {:induction false} HeldXActsAtMostOnce(s: ZoomState, presses: seq<(bool, bool)>)
    requires forall i :: 0 <= i < |presses| ==> presses[i].1
    ensures forall i :: 1 <= i <= |presses| ==> Run(s, presses[..i]).latchX
    ensures forall i :: 1 <= i < |presses| ==>
      var u := ButtonA(Run(s, presses[..i]), presses[i].0);
      ButtonX(u, presses[i].1) == u
    decreases |presses|
  {
    if presses != [] {
      var t := Tick(s, presses[0].0, presses[0].1);
      HeldXActsAtMostOnce(t, presses[1..]);
      forall i | 1 <= i <= |presses|
        ensures Run(s, presses[..i]).latchX
      {
        assert presses[..i][1..] == presses[1..][..i - 1];
        assert Run(s, presses[..i]) == Run(t, presses[1..][..i - 1]);
      }
    }
  }

  /** From the demo's start (x1, both latches clear), every zoom reached by
      any sequence of refreshes is a power of two in [1, 512]. */
  lemma DemoZoomLevels(presses: seq<(bool, bool)>)
    ensures InRange(Run(Initial, presses).zoom) && IsPowerOfTwo(Run(Initial, presses).zoom)
  {
    RunKeepsZoomLevel(Initial, presses);
  }
}
